=== FILE: README.md ===
# izyOrder: a Dafny model of the menu app's sequential logic

izyOrder is a bilingual (English/German) restaurant menu web app. Owners sign
up, manage their menu categories, items and offers, and choose presentation
settings. Customers browse the menu and a carousel of the active offers. This
project models the parts of the app that are sequential logic rather than
rendering or backend calls:

- **Browser store.** The change-notification event bus (`on`/`off`/`emit`)
  and the restaurant store with its offer and menu-item edits and its
  customization merge. The stored data is an in-memory `map`.
- **Offer validity.** `isValidOffer` is evaluated at a given moment (weekday,
  hour, minute). Lexicographic order on zero-padded `HH:MM` texts is proved to
  agree with minute-of-day order.
- **Offer carousel.** The active-offer filter, the slide index with
  wrap-around next, previous and auto-advance, the hover pause, and the
  placeholder images. The customer offers section passes its list to it.
- **Admin forms.** The offers editor (day toggles, reset, edit and save
  dispatch, day labels). The menu manager (quick edit, create-time
  validation with JavaScript `trim`, the default sort order, the dietary
  checkbox coupling). The settings page (defaults, save payload, font style).
  The two-step sign-up wizard and its slug normalisation.
- **Pure derivations.** Dashboard counts, the dietary badge list, the
  database-row to view-object conversions, and the language fallback.

Each source file is one module: `LocalStore`, `OffersCarousel`,
`OffersSection`, `OffersManagement`, `AdminSignup`, `MenuManagement`,
`DietaryIcons`, `AdminDashboard`, `CustomerMenu`, `CustomerWelcome` and
`RestaurantSettings`. The shared row and view datatypes are in `Types`.

React state becomes a `class` whose methods update its fields. Pure
expressions become functions and lemmas.

Calls to the hosted backend are method parameters:

- `created: bool` and `updated: bool` for the menu and settings saves;
- `SignUpResult` and `CreateResult` for the sign-up.

A thrown exception is one of the outcome constructors. The clock is a `Now`
parameter. Listeners are opaque identities, and `Emit` returns the sequence of
calls it makes.

Where the code and its written description differ, the model follows the code:

- `goToSlide` sets any index, with no range check and no no-op for an index
  out of range.
- The meat badge is shown for a non-empty meat type (a truthy string), not for
  any non-null one.

## Model

| member | source | states |
|---|---|---|
| Types.InLang | src/components/customer/CustomerMenu.tsx:161 | `text[language]`: the English text in English, the German text in German |
| Types.Localized | src/components/customer/CustomerMenu.tsx:161 | `text[language] \|\| text.en`: English in English; in German the German text unless it is empty, then English; empty only when English is |
| Types.NatText | src/components/shared/DietaryIcons.tsx:45 | a number as a template literal renders it: non-empty, decimal digits only, no leading zero except for 0 |
| Types.NatTextValue | src/components/shared/DietaryIcons.tsx:45 | the rendered digits read back as the number |
| LocalStore.Without | src/utils/localStorage.ts:14 | `filter(cb => cb !== callback)`: no occurrence of the callback remains, every other listener stays, never longer |
| LocalStore.WithoutCounts | src/utils/localStorage.ts:14 | removal drops exactly the callback's occurrences: the multiset of listeners with that callback's count set to 0 |
| LocalStore.WithoutAppend | src/utils/localStorage.ts:14 | the filter keeps order: it distributes over concatenation |
| LocalStore.OnThenOff | src/utils/localStorage.ts:5-15 | `off` after `on` with the same callback leaves the list as `off` alone would |
| LocalStore.Deliveries | src/utils/localStorage.ts:17-20 | one call per listener occurrence |
| LocalStore.EventBus.constructor | src/utils/localStorage.ts:2-3 | the registry starts empty |
| LocalStore.EventBus.On | src/utils/localStorage.ts:5-10 | the callback is appended to that event's list (created if absent, duplicates kept); other events' lists are unchanged |
| LocalStore.EventBus.Off | src/utils/localStorage.ts:12-15 | a no-op for an event without a list; otherwise every occurrence of the callback is removed; other events are unchanged |
| LocalStore.EventBus.Emit | src/utils/localStorage.ts:17-20 | the listeners are called in registration order with the data, once per occurrence; nothing for an unknown event |
| LocalStore.Merge | src/utils/localStorage.ts:101 | `{ ...current, ...patch }`: each supplied key overrides, each key not supplied keeps its old value |
| LocalStore.MergeTwice | src/utils/localStorage.ts:97-103 | two merges are one merge of the combined patch, and merging the same patch twice is merging once |
| LocalStore.FirstIndex | src/utils/localStorage.ts:81 | `findIndex`: -1 exactly when nothing matches, else the first matching position |
| LocalStore.RemoveOffers | src/utils/localStorage.ts:92 | every offer with the id is removed and every other offer is kept; without a match the list is unchanged |
| LocalStore.RemoveOffersAppend | src/utils/localStorage.ts:92 | the removal keeps the relative order of the rest: it distributes over concatenation |
| LocalStore.ReplaceFirstOffer | src/utils/localStorage.ts:81-84 | the replacement changes only the first offer with the id and keeps the length |
| LocalStore.WithMenuItem | src/utils/localStorage.ts:52-64 | there is no result exactly when no category holds an item with the id; otherwise the category count and the offers are unchanged |
| LocalStore.WithMenuItemPlacement | src/utils/localStorage.ts:56-64 | the item replaces the first item with its id in the first category holding it; every other category and item is unchanged |
| LocalStore.Store.constructor | src/utils/localStorage.ts:38-43 | the store starts empty |
| LocalStore.Store.SaveRestaurant | src/utils/localStorage.ts:38-49 | stores the restaurant under its own id, overwriting; then emits restaurant-, menu- and offers-updated in that order |
| LocalStore.Store.AddOffer | src/utils/localStorage.ts:69-75 | appends the offer and saves; a no-op for an unknown restaurant |
| LocalStore.Store.UpdateOffer | src/utils/localStorage.ts:77-86 | replaces the first offer with the same id and saves; a no-op when the restaurant or the id is missing |
| LocalStore.Store.DeleteOffer | src/utils/localStorage.ts:88-94 | removes every offer with the id and saves, even without a match; a no-op for an unknown restaurant |
| LocalStore.Store.UpdateMenuItem | src/utils/localStorage.ts:52-66 | replaces the item in the first category holding its id and saves; a no-op otherwise |
| LocalStore.Store.UpdateCustomization | src/utils/localStorage.ts:97-103 | merges the supplied keys into the stored customization and saves; a no-op for an unknown restaurant |
| LocalStore.ClockText | src/utils/localStorage.ts:111 | the `HH:MM` text of the moment, zero-padded, denotes its minute of day |
| LocalStore.IsValidOffer | src/utils/localStorage.ts:106-120 | a valid offer is active and the current weekday is among its days |
| LocalStore.StrLessIrreflexive | src/utils/localStorage.ts:117 | no time text is before itself in string order |
| LocalStore.StrLessTrichotomy | src/utils/localStorage.ts:117 | of two distinct texts exactly one is smaller in string order |
| LocalStore.StrLessTransitive | src/utils/localStorage.ts:117 | string order is transitive |
| LocalStore.TimeTextOrder | src/utils/localStorage.ts:117 | on `HH:MM` texts, string `<` is minute-of-day `<` |
| LocalStore.ValidOfferByMinutes | src/utils/localStorage.ts:106-120 | valid exactly when active, the weekday is listed and start ≤ now ≤ end in minutes, both ends inclusive |
| LocalStore.SingleMinuteWindow | src/utils/localStorage.ts:117 | a window whose start equals its end admits exactly that one minute |
| LocalStore.InvertedWindowNeverValid | src/utils/localStorage.ts:117 | a window whose start is after its end is never valid |
| LocalStore.SeedTimes | src/data/mockData.ts:290-299 | the seed offers' window ends are well-formed, with their minute values |
| LocalStore.HappyHourOpen | src/data/mockData.ts:285-293 | the weekday seed offer is valid mid-window and at its closing minute |
| LocalStore.HappyHourClosed | src/data/mockData.ts:285-293 | the weekday seed offer is invalid a minute after closing and at the weekend |
| LocalStore.WeekendBrunchVectors | src/data/mockData.ts:294-302 | the weekend seed offer is valid at its opening minute, and invalid a minute after closing and on a weekday |
| OffersCarousel.ActiveOffers | src/components/shared/OffersCarousel.tsx:30 | exactly the active offers are kept |
| OffersCarousel.ActiveOffersAppend | src/components/shared/OffersCarousel.tsx:30 | the filter keeps input order: it distributes over concatenation |
| OffersCarousel.ActiveOffersOfActive | src/components/shared/OffersCarousel.tsx:30 | a list of active offers passes the filter unchanged |
| OffersCarousel.ActiveOffersIdempotent | src/components/shared/OffersCarousel.tsx:30 | filtering twice is filtering once |
| OffersCarousel.RendersCarousel | src/components/shared/OffersCarousel.tsx:56 | the carousel renders exactly when some offer is active |
| OffersCarousel.NextIndex | src/components/shared/OffersCarousel.tsx:36-37 | the next slide stays in range |
| OffersCarousel.PrevIndex | src/components/shared/OffersCarousel.tsx:49 | the previous slide stays in range |
| OffersCarousel.NextPrevInverse | src/components/shared/OffersCarousel.tsx:48-54 | next is successor modulo n, and next and previous undo each other |
| OffersCarousel.AfterTicksWrap | src/components/shared/OffersCarousel.tsx:35-39 | k ≤ n ticks from i land on i + k, wrapped once past the last slide |
| OffersCarousel.FullCycle | src/components/shared/OffersCarousel.tsx:35-39 | n ticks return to the starting slide |
| OffersCarousel.OfferImage | src/components/shared/OffersCarousel.tsx:59-68 | always one of the five pictures, chosen by index mod 5 |
| OffersCarousel.Carousel.constructor | src/components/shared/OffersCarousel.tsx:27-28 | first slide, not hovered; the index is in range when there is a slide |
| OffersCarousel.Carousel.Tick | src/components/shared/OffersCarousel.tsx:32-42 | fires only while the timer is armed; advances with wrap-around and keeps the index in range |
| OffersCarousel.Carousel.GoToNext | src/components/shared/OffersCarousel.tsx:52-54 | forward with wrap-around; keeps the index in range |
| OffersCarousel.Carousel.GoToPrevious | src/components/shared/OffersCarousel.tsx:48-50 | backward with wrap-around; keeps the index in range |
| OffersCarousel.Carousel.GoToSlide | src/components/shared/OffersCarousel.tsx:44-46 | sets the index as given; it is in range exactly when the index names a slide, as the dots' positions do |
| OffersCarousel.Carousel.MouseEnter | src/components/shared/OffersCarousel.tsx:101 | hovering disarms the timer and keeps the slide |
| OffersCarousel.Carousel.MouseLeave | src/components/shared/OffersCarousel.tsx:102 | leaving re-arms the timer exactly when auto-scroll is on and there is more than one slide |
| OffersCarousel.NextThenPrevious | src/components/shared/OffersCarousel.tsx:48-54 | next then previous returns to the same slide |
| OffersSection.SectionOffers | src/components/customer/OffersSection.tsx:9 | exactly the active offers; a missing list counts as empty |
| OffersSection.RendersSection | src/components/customer/OffersSection.tsx:11 | the section renders exactly when some offer is active |
| OffersSection.CarouselShowsSectionOffers | src/components/customer/OffersSection.tsx:9-14 | the carousel's second filter changes nothing, and the carousel renders whenever the section does |
| OffersManagement.RemoveDay | src/components/admin/OffersManagement.tsx:84 | every occurrence of the day is removed and every other day is kept |
| OffersManagement.ToggledDays | src/components/admin/OffersManagement.tsx:82-87 | the day's membership flips and every other day's is unchanged; a new day is appended at the end |
| OffersManagement.ToggleTwice | src/components/admin/OffersManagement.tsx:82-87 | toggling a day twice restores the set of days |
| OffersManagement.ToggleTwiceReorders | src/components/admin/OffersManagement.tsx:82-87 | the order can change: [1, 2] toggled twice on 1 is [2, 1] |
| OffersManagement.ToggleKeepsNoDuplicates | src/components/admin/OffersManagement.tsx:82-87 | toggling keeps a duplicate-free list duplicate-free |
| OffersManagement.DayAbbreviation | src/components/admin/OffersManagement.tsx:156 | the first three letters of the day's name for days 0-6; no label otherwise |
| OffersManagement.DayAbbreviations | src/components/admin/OffersManagement.tsx:22 | the seven labels are Sun, Mon, Tue, Wed, Thu, Fri, Sat, with Sunday = 0 |
| OffersManagement.EditSaveRoundTrip | src/components/admin/OffersManagement.tsx:44-74 | the edit copy and the saved columns are inverse |
| OffersManagement.OffersEditor.constructor | src/components/admin/OffersManagement.tsx:11-20 | the default form, nothing being edited, form hidden |
| OffersManagement.OffersEditor.OpenForm | src/components/admin/OffersManagement.tsx:120 | the Add button shows the form as it is |
| OffersManagement.OffersEditor.ResetForm | src/components/admin/OffersManagement.tsx:31-42 | no days, 09:00-22:00, active, 10 % discount, nothing being edited, form hidden |
| OffersManagement.OffersEditor.HandleEdit | src/components/admin/OffersManagement.tsx:44-55 | copies the row's fields one-to-one into the form and opens it for that offer |
| OffersManagement.OffersEditor.HandleSave | src/components/admin/OffersManagement.tsx:57-74 | an update of the edited offer, otherwise a create, with the form's data; then the form is reset either way |
| OffersManagement.OffersEditor.ToggleDay | src/components/admin/OffersManagement.tsx:82-87 | the form's day list is toggled and nothing else changes |
| OffersManagement.OffersEditor.SetActive | src/components/admin/OffersManagement.tsx:352 | sets the active flag and nothing else |
| OffersManagement.EditThenSave | src/components/admin/OffersManagement.tsx:44-74 | editing an offer and saving it untouched sends an update of that offer carrying its stored columns |
| AdminSignup.LowerChar | src/components/admin/AdminSignup.tsx:63 | lower-casing maps each capital `A`-`Z` to its lower-case letter (32 code points on), leaves every other character alone, and leaves no capital |
| AdminSignup.ToLower | src/components/admin/AdminSignup.tsx:63 | `toLowerCase()` lower-cases each character in place: same length, position by position `LowerChar`, no capital left |
| AdminSignup.ToLowerNoCapitals | src/components/admin/AdminSignup.tsx:63 | a text without capitals is unchanged by lower-casing |
| AdminSignup.SkipSeparators | src/components/admin/AdminSignup.tsx:63 | what is left after a run of separators starts with a kept character and is shorter |
| AdminSignup.SkipSeparatorsDropsRun | src/components/admin/AdminSignup.tsx:63 | the skip removes exactly the leading run of separators: the rest is the suffix of the input after it |
| AdminSignup.TakeWord | src/components/admin/AdminSignup.tsx:63 | a maximal leading `[a-z0-9]` run |
| AdminSignup.CollapseSeparators | src/components/admin/AdminSignup.tsx:63 | `replace(/[^a-z0-9]+/g, '-')` starts with a dash exactly when the text starts with a separator |
| AdminSignup.CollapseIsClean | src/components/admin/AdminSignup.tsx:63 | after the collapse only `a-z`, `0-9` and `-` remain, with no `--` |
| AdminSignup.DropEdgeDashesClean | src/components/admin/AdminSignup.tsx:63 | `replace(/(^-\|-$)/g, '')` on a collapsed text leaves no dash at either end and no new `--` |
| AdminSignup.Slug | src/components/admin/AdminSignup.tsx:63 | the slug has only `a-z`, `0-9` and `-`, no `--`, and no dash at either end (it may be empty) |
| AdminSignup.CollapseWordPrefix | src/components/admin/AdminSignup.tsx:63 | a run of kept characters passes through the collapse unchanged |
| AdminSignup.CollapsedIsJoinedWords | src/components/admin/AdminSignup.tsx:63 | a collapsed text without its trailing dash is its words joined by single dashes |
| AdminSignup.SlugIsJoinedWords | src/components/admin/AdminSignup.tsx:63 | the slug is the maximal `[a-z0-9]` runs of the lower-cased name, in order, joined by single dashes |
| AdminSignup.CollapseOfClean | src/components/admin/AdminSignup.tsx:63 | a clean text collapses to itself |
| AdminSignup.SlugIdempotent | src/components/admin/AdminSignup.tsx:63 | normalising a slug again changes nothing |
| AdminSignup.SlugOfSeparatorsOnly | src/components/admin/AdminSignup.tsx:63 | names made only of separators give the empty slug |
| AdminSignup.SlugOfShortName | src/components/admin/AdminSignup.tsx:63 | "A b!" gives "a-b" |
| AdminSignup.SlugOfDoubledSeparator | src/components/admin/AdminSignup.tsx:63 | a run of two separators inside a name becomes one dash: "a  b" gives "a-b" |
| Types.Utf16Length | src/components/admin/AdminSignup.tsx:39 | JavaScript's `length`: between one and two code units per character, one per character when none is above U+FFFF |
| AdminSignup.PasswordError | src/components/admin/AdminSignup.tsx:34-42 | no error exactly when the passwords match and have at least 6 UTF-16 code units; a mismatch is reported before the length |
| AdminSignup.PasswordLengthInCodeUnits | src/components/admin/AdminSignup.tsx:39 | three emoji (six code units) pass the length check, five ASCII letters do not |
| AdminSignup.OrElse | src/components/admin/AdminSignup.tsx:57 | `error \|\| fallback`: the backend's message when non-empty |
| AdminSignup.SignupWizard.constructor | src/components/admin/AdminSignup.tsx:9-27 | step 1, no error, not loading, empty fields |
| AdminSignup.SignupWizard.SetAccount | src/components/admin/AdminSignup.tsx:14-18 | the account fields are set and nothing else changes |
| AdminSignup.SignupWizard.SetDetails | src/components/admin/AdminSignup.tsx:21-27 | the restaurant fields are set and nothing else changes |
| AdminSignup.SignupWizard.HandleUserSubmit | src/components/admin/AdminSignup.tsx:29-45 | a failed check sets its message and keeps the step; the step becomes 2 exactly when both checks pass (length in UTF-16 code units); the form fields and flags are unchanged |
| AdminSignup.SignupWizard.Back | src/components/admin/AdminSignup.tsx:90 | at step 1 it leaves the wizard; at step 2 it returns to step 1; the error, the form fields, loading and the dashboard flag are unchanged |
| AdminSignup.SignupWizard.HandleRestaurantSubmit | src/components/admin/AdminSignup.tsx:47-82 | sign-up is always called with the stored email and password; the restaurant is requested, under the slug of its name, exactly when sign-up succeeded; each failure sets its message and ends loading; it goes to the dashboard only when both succeed; the step and the form fields are unchanged |
| MenuManagement.TrimStart | src/components/admin/MenuManagement.tsx:82 | the leading white space is removed; the result is empty exactly for blank text |
| MenuManagement.TrimEnd | src/components/admin/MenuManagement.tsx:82 | the trailing white space is removed; the result is empty exactly for blank text |
| MenuManagement.TrimEndPrefix | src/components/admin/MenuManagement.tsx:82 | trimming the end keeps a prefix |
| MenuManagement.Trim | src/components/admin/MenuManagement.tsx:82 | `trim()` is empty exactly for blank text; otherwise neither end is white space |
| MenuManagement.CategoryFormComplete | src/components/admin/MenuManagement.tsx:82 | complete exactly when both names have non-white-space text |
| MenuManagement.ItemFormComplete | src/components/admin/MenuManagement.tsx:115 | complete exactly when both names have text and the price is positive |
| MenuManagement.DefaultSortOrder | src/components/admin/MenuManagement.tsx:77 | the current number of categories, or 0 when the restaurant or its list is missing |
| MenuManagement.EditRoundTrip | src/components/admin/MenuManagement.tsx:46-70 | the edit copies exactly the five fields, and saving them untouched leaves the item as it was |
| MenuManagement.SpicyBadge | src/components/admin/MenuManagement.tsx:273-275 | shown exactly for a level above 0, as "Spicy n/3" with digits that read back as the level |
| MenuManagement.MenuManager.constructor | src/components/admin/MenuManagement.tsx:12-33 | nothing being edited, forms hidden and empty; vegan ⇒ vegetarian holds |
| MenuManagement.MenuManager.HandleEditItem | src/components/admin/MenuManagement.tsx:46-55 | opens the quick edit on a copy of the item's names, descriptions and price |
| MenuManagement.MenuManager.SetEditForm | src/components/admin/MenuManagement.tsx:335-399 | typing into the quick edit changes only its form |
| MenuManagement.MenuManager.HandleSaveEdit | src/components/admin/MenuManagement.tsx:57-70 | a no-op without an edited item; otherwise sends exactly the five edited fields for that item and clears the edit |
| MenuManagement.MenuManager.CancelEdit | src/components/admin/MenuManagement.tsx:407 | closes the edit and keeps the edit form's contents |
| MenuManagement.MenuManager.HandleAddCategory | src/components/admin/MenuManagement.tsx:72-79 | opens an empty category form sorted after the existing categories |
| MenuManagement.MenuManager.SetCategoryNames | src/components/admin/MenuManagement.tsx:440-459 | typing sets the two names; the sort order and everything else stay |
| MenuManagement.MenuManager.HandleSaveCategory | src/components/admin/MenuManagement.tsx:81-95 | sends the form exactly when both names are non-blank, else alerts; on success the form closes and resets, and on failure it alerts and stays as it was |
| MenuManagement.MenuManager.HandleAddMenuItem | src/components/admin/MenuManagement.tsx:97-112 | opens the empty item form for that category |
| MenuManagement.MenuManager.SetItemDetails | src/components/admin/MenuManagement.tsx:502-591 | sets the text, price and image fields only |
| MenuManagement.MenuManager.HandleSaveMenuItem | src/components/admin/MenuManagement.tsx:114-140 | sends the form for the selected category exactly when both names are non-blank and the price is positive; on success the form closes, the selection clears and the form resets; on failure everything stays |
| MenuManagement.MenuManager.SetVegetarian | src/components/admin/MenuManagement.tsx:646-649 | unchecking vegetarian also clears vegan; vegan ⇒ vegetarian is kept |
| MenuManagement.MenuManager.SetVegan | src/components/admin/MenuManagement.tsx:659-662 | checking vegan also sets vegetarian; vegan ⇒ vegetarian is kept |
| MenuManagement.MenuManager.SetSpiceLevel | src/components/admin/MenuManagement.tsx:603-615 | the level is one of 0-3 and nothing else changes |
| MenuManagement.MenuManager.SetMeatType | src/components/admin/MenuManagement.tsx:623-633 | the empty "No Meat" choice stores no meat type; any other choice stores that one |
| MenuManagement.EditThenSave | src/components/admin/MenuManagement.tsx:46-70 | a quick edit saved untouched sends an update that leaves the item as it was |
| MenuManagement.DietaryClicks | src/components/admin/MenuManagement.tsx:646-662 | any sequence of dietary clicks keeps vegan ⇒ vegetarian |
| DietaryIcons.UpperChar | src/components/shared/DietaryIcons.tsx:34 | `toUpperCase()` on one ASCII character |
| DietaryIcons.Capitalized | src/components/shared/DietaryIcons.tsx:34 | the first letter upper-cased and the rest unchanged |
| DietaryIcons.GermanMeat | src/components/shared/DietaryIcons.tsx:35-36 | beef is Rind, chicken is Huhn, and anything else is Schwein |
| DietaryIcons.SpiceSuffix | src/components/shared/DietaryIcons.tsx:45 | " (n/3)" with digits that read back as the level |
| DietaryIcons.Icons | src/components/shared/DietaryIcons.tsx:14-48 | the pushes build exactly the leaf, meat, spice list |
| DietaryIcons.IconCount | src/components/shared/DietaryIcons.tsx:16-48 | at most one leaf badge, with vegan winning; a meat badge exactly for a non-empty meat type; a spice badge exactly for a positive level; at most three |
| DietaryIcons.IconKinds | src/components/shared/DietaryIcons.tsx:16-48 | each kind appears only under its condition, and a leaf badge comes first |
| DietaryIcons.IconOrder | src/components/shared/DietaryIcons.tsx:14-48 | the badges are strictly in the order leaf, meat, spice |
| DietaryIcons.IconLabels | src/components/shared/DietaryIcons.tsx:30-48 | the meat badge carries the capitalised English and the German name; the last badge carries the spice suffix |
| DietaryIcons.RendersIcons | src/components/shared/DietaryIcons.tsx:50 | renders exactly when vegan, vegetarian, a meat type or a positive spice level is set |
| AdminDashboard.SoldOut | src/components/admin/AdminDashboard.tsx:112 | exactly the sold-out items |
| AdminDashboard.SoldOutTotal | src/components/admin/AdminDashboard.tsx:111-112 | the per-category sold-out sum never exceeds the item sum |
| AdminDashboard.SoldOutAppend | src/components/admin/AdminDashboard.tsx:112 | the sold-out filter distributes over concatenation |
| AdminDashboard.TotalsCountAllItems | src/components/admin/AdminDashboard.tsx:106-112 | the per-category sums count all items and all sold-out items of the menu |
| AdminDashboard.ActiveRows | src/components/admin/AdminDashboard.tsx:109 | exactly the active offers |
| AdminDashboard.ActiveRowsAppend | src/components/admin/AdminDashboard.tsx:109 | the active-offer filter distributes over concatenation, so the active rows keep their order |
| AdminDashboard.TotalMenuItems | src/components/admin/AdminDashboard.tsx:106-107 | the number of items of all categories; 0 without categories |
| AdminDashboard.ActiveOffers | src/components/admin/AdminDashboard.tsx:109 | the number of active offers: the length of `ActiveRows` of the offers, at most the offer count; 0 without offers or when none is active |
| AdminDashboard.SoldOutItems | src/components/admin/AdminDashboard.tsx:111-112 | the number of sold-out items of all categories, at most the item total |
| AdminDashboard.CategoryCount | src/components/admin/AdminDashboard.tsx:185 | the length of the category list, or 0 |
| CustomerMenu.ImageOf | src/components/customer/CustomerMenu.tsx:16 | the item's picture when set, else the fixed default; never empty |
| CustomerMenu.ConvertMenuItem | src/components/customer/CustomerMenu.tsx:11-25 | each row field goes one-to-one into name, description, dietary info, price and sold-out flag |
| CustomerMenu.ConvertedItemBadges | src/components/customer/CustomerMenu.tsx:11-25 | a converted item shows badges exactly when its row is vegetarian, vegan, spicy or has a meat type |
| CustomerMenu.LegacyOfferRoundTrip | src/components/customer/CustomerMenu.tsx:65-73 | the offer conversion is a bijection between row and view format |
| CustomerMenu.LegacyOffers | src/components/customer/CustomerMenu.tsx:65-73 | same length and order, each row converted; empty when the list is missing |
| CustomerMenu.LegacyCustomization | src/components/customer/CustomerMenu.tsx:78-87 | present exactly when the stored settings are, each field copied |
| CustomerMenu.LegacyActiveCount | src/components/customer/CustomerMenu.tsx:65-73 | as many converted offers are active as stored rows |
| CustomerMenu.OffersCarouselAppend | src/components/customer/OffersSection.tsx:9 | the section filter splits at the first offer |
| CustomerMenu.CustomerSeesDashboardActiveOffers | src/components/admin/AdminDashboard.tsx:109 | customers see as many offers as the dashboard counts as active |
| CustomerMenu.CategoryLabel | src/components/customer/CustomerMenu.tsx:131 | `name_de` in German, otherwise `name_en` |
| CustomerMenu.ShownCategories | src/components/customer/CustomerMenu.tsx:139-141 | only categories whose id is the active one are rendered |
| CustomerMenu.NoneShown | src/components/customer/CustomerMenu.tsx:139-141 | no category with the active id: nothing is rendered |
| CustomerMenu.ShowsExactlyOne | src/components/customer/CustomerMenu.tsx:139-141 | with distinct ids, selecting a category shows that one and no other |
| CustomerMenu.MenuPage.constructor | src/components/customer/CustomerMenu.tsx:32 | no category is active at first |
| CustomerMenu.MenuPage.OnRestaurantLoaded | src/components/customer/CustomerMenu.tsx:34-38 | a non-empty category list makes its first category active; otherwise the choice stays |
| CustomerMenu.MenuPage.SelectCategory | src/components/customer/CustomerMenu.tsx:124 | a tab click activates that category |
| CustomerMenu.LoadShowsFirstCategory | src/components/customer/CustomerMenu.tsx:34-38 | after a load exactly the first category is shown |
| CustomerWelcome.Description | src/components/customer/CustomerWelcome.tsx:96 | `description_de` in German, otherwise `description_en` |
| CustomerWelcome.WelcomeText | src/components/customer/CustomerWelcome.tsx:98-101 | shown exactly when there are settings; the chosen language's text unless it is empty, then English |
| CustomerWelcome.WelcomeFromRecord | src/components/customer/CustomerWelcome.tsx:53-66 | on a stored restaurant the line appears exactly with settings and is one of its two stored texts |
| CustomerWelcome.WelcomeSectionOffers | src/components/customer/CustomerWelcome.tsx:43-51 | the offers section gets exactly the converted active stored offers |
| RestaurantSettings.OrDefault | src/components/admin/RestaurantSettings.tsx:31-36 | `value \|\| fallback` on strings |
| RestaurantSettings.FormOf | src/components/admin/RestaurantSettings.tsx:28-37 | each field takes the stored value, or its default when that is empty: `''`, #f97316, #059669, #dc2626, modern |
| RestaurantSettings.LoadSaveRoundTrip | src/components/admin/RestaurantSettings.tsx:28-52 | loading then saving unchanged writes back the stored values exactly when no colour and no font is empty |
| RestaurantSettings.SaveLoadRoundTrip | src/components/admin/RestaurantSettings.tsx:28-52 | a form with its colours and font set survives a save and a reload |
| RestaurantSettings.PreviewFontFamily | src/components/admin/RestaurantSettings.tsx:247 | serif exactly for the classic style |
| RestaurantSettings.PreviewWelcome | src/components/admin/RestaurantSettings.tsx:251 | the English welcome text, or a placeholder; never empty |
| RestaurantSettings.SettingsPage.constructor | src/components/admin/RestaurantSettings.tsx:11-20 | the default form, not loading, no success |
| RestaurantSettings.SettingsPage.Load | src/components/admin/RestaurantSettings.tsx:28-38 | stored settings, when present, replace the form; otherwise it stays |
| RestaurantSettings.SettingsPage.SelectFontStyle | src/components/admin/RestaurantSettings.tsx:208-211 | one of modern, classic, elegant; nothing else changes |
| RestaurantSettings.SettingsPage.HandleSave | src/components/admin/RestaurantSettings.tsx:41-60 | sends the six fields under their stored names; success is exactly the backend's answer; loading ends off |
| RestaurantSettings.SettingsPage.SuccessTimerFires | src/components/admin/RestaurantSettings.tsx:56 | the success flag clears |
| RestaurantSettings.LoadThenSave | src/components/admin/RestaurantSettings.tsx:28-60 | loading settings with colours and font set, then saving, sends the same settings back |

## Left out

- Browser storage and JSON (`getRestaurant`, `getRestaurants`, `localStorage`). The store is an in-memory map, and the mutation of the parsed object is a value update.
- LocalStore.EventBus, LocalStore.Store: event names and restaurant ids are assumed not to be property names of `Object.prototype` (`toString`, `constructor`, `__proto__` and the like). The listener registry and the parsed restaurant table are plain objects, and the maps here treat every key alike.
- LocalStore.EventBus.On, LocalStore.EventBus.Off, LocalStore.EventBus.Emit: for such an event name the source finds an inherited non-array value and throws a `TypeError` (`src/utils/localStorage.ts:6-19`).
- LocalStore.Store.AddOffer, LocalStore.Store.UpdateOffer, LocalStore.Store.DeleteOffer, LocalStore.Store.UpdateMenuItem, LocalStore.Store.UpdateCustomization: for such a restaurant id `getRestaurant` returns the inherited value, not `null`. These operations then throw or write under another key instead of doing nothing (`src/utils/localStorage.ts:35`).
- LocalStore.Store.SaveRestaurant: an id of `__proto__` replaces the parsed table's prototype instead of adding a key, so the source does not persist the restaurant (`src/utils/localStorage.ts:42-43`).
- The hosted backend, authentication and the context providers. `src/services/restaurantService.ts`, `src/services/authService.ts`, `src/context/AuthContext.tsx` and `src/context/RestaurantContext.tsx` are not part of this model. Their results are method parameters.
- The refetch after each backend call is not modelled.
- The listeners' own effects. `Emit` reports the calls it makes, so a listener that registers or removes listeners during an emit is not modelled.
- The wall clock. `new Date()` becomes the `Now` parameter, and there is no timezone handling (the code has none).
- Timers as real time. `setInterval` is the abstract `Tick`, which only fires while armed. The three-second success timeout is `SuccessTimerFires`.
- The translation function `t` and the language context. `LanguageContext.tsx` is not part of this model. Badge labels are kept as the key and the bilingual fallback handed to `t`.
- Rendering, CSS classes, icons and the `sticky` prop that `OffersSection` passes and the carousel does not declare.
- Carousel index clamping when the offer list shrinks. The code has none, so the index can leave the range after a shrink.
- Unicode case mapping. `toLowerCase` and `toUpperCase` are modelled on ASCII letters only.
- LocalStore.StrLess orders characters by Unicode scalar value, which differs from JavaScript's UTF-16 code-unit order only between characters U+E000-U+FFFF and characters above U+FFFF; the time texts it compares are ASCII.
- The browser's own form validation (`required`, `minLength={6}`, `type="email"` in `AdminSignup.tsx`). `HandleUserSubmit` models the submit handler's checks, which refuse every password `minLength` refuses.
- Number formatting and parsing: `toFixed`, `parseFloat` and `parseInt` of form inputs. Prices are `real`, and the spice select yields one of its four options.
- The plain text, colour and image field setters of the settings and offer forms. Each is a one-field record update like `SetActive`.
- The item delete and sold-out toggles (`handleToggleSoldOut`), the offer delete confirmation dialog, and the redirect effects for a missing user. Each is a backend or navigation call only.
- `convertMenuItem`'s `category` field, which the rows do not carry.
- The customer pages' behaviour when the restaurant is still loading or missing.
- Logo and hero image fallbacks on the customer pages.

=== FILE: admin_dashboard.dfy ===
/** The dashboard's summary figures: menu items, active offers, sold-out
    items and categories of the owner's restaurant. A missing list counts as
    empty. */
module AdminDashboard {
  import opened Types

  /** `category.menu_items`, or nothing when the list is missing. */
  function ItemsOf(c: CategoryRow): seq<MenuItemRow>
  {
    if c.menu_items.Some? then c.menu_items.value else []
  }

  /** All items of the categories, category by category. */
  function AllItems(cats: seq<CategoryRow>): seq<MenuItemRow>
  {
    if cats == [] then [] else ItemsOf(cats[0]) + AllItems(cats[1..])
  }

  /** The sold-out items of a list, in order. */
  function SoldOut(items: seq<MenuItemRow>): (r: seq<MenuItemRow>)
    ensures |r| <= |items|
    ensures forall x :: x in r <==> x in items && x.is_sold_out
  {
    if items == [] then []
    else (if items[0].is_sold_out then [items[0]] else []) + SoldOut(items[1..])
  }

  /** The `reduce` summing each category's item count. */
  function ItemTotal(cats: seq<CategoryRow>): (n: nat)
  {
    if cats == [] then 0 else |ItemsOf(cats[0])| + ItemTotal(cats[1..])
  }

  /** The `reduce` summing each category's sold-out count; never more than
      the item total. */
  function SoldOutTotal(cats: seq<CategoryRow>): (n: nat)
    ensures n <= ItemTotal(cats)
  {
    if cats == [] then 0 else |SoldOut(ItemsOf(cats[0]))| + SoldOutTotal(cats[1..])
  }

  lemma {:induction false} SoldOutAppend(a: seq<MenuItemRow>, b: seq<MenuItemRow>)
    ensures SoldOut(a + b) == SoldOut(a) + SoldOut(b)
  {
    if a == [] {
      assert a + b == b;
    } else {
      assert (a + b)[1..] == a[1..] + b;
      SoldOutAppend(a[1..], b);
    }
  }

  /** The per-category sums count the items of the whole menu: the item
      total is the number of items, the sold-out total the number of
      sold-out items. */
  lemma {:induction false} TotalsCountAllItems(cats: seq<CategoryRow>)
    ensures ItemTotal(cats) == |AllItems(cats)|
    ensures SoldOutTotal(cats) == |SoldOut(AllItems(cats))|
  {
    if cats != [] {
      TotalsCountAllItems(cats[1..]);
      SoldOutAppend(ItemsOf(cats[0]), AllItems(cats[1..]));
    }
  }

  /** The active rows of an offer list, in order. */
  function ActiveRows(offers: seq<OfferRow>): (r: seq<OfferRow>)
    ensures |r| <= |offers|
    ensures forall o :: o in r <==> o in offers && o.is_active
  {
    if offers == [] then []
    else (if offers[0].is_active then [offers[0]] else []) + ActiveRows(offers[1..])
  }

  /** The filter distributes over concatenation: active rows keep their
      relative order. */
  lemma {:induction false} ActiveRowsAppend(a: seq<OfferRow>, b: seq<OfferRow>)
    ensures ActiveRows(a + b) == ActiveRows(a) + ActiveRows(b)
  {
    if a == [] {
      assert a + b == b;
    } else {
      assert (a + b)[1..] == a[1..] + b;
      ActiveRowsAppend(a[1..], b);
    }
  }

  /** `totalMenuItems`. */
  function TotalMenuItems(r: RestaurantRecord): (n: nat)
    ensures r.menu_categories.None? ==> n == 0
    ensures r.menu_categories.Some? ==> n == |AllItems(r.menu_categories.value)|
  {
    if r.menu_categories.Some? then
      TotalsCountAllItems(r.menu_categories.value);
      ItemTotal(r.menu_categories.value)
    else 0
  }

  /** `activeOffers`: how many offers are active. */
  function ActiveOffers(r: RestaurantRecord): (n: nat)
    ensures r.offers.None? ==> n == 0
    ensures r.offers.Some? ==> n == |ActiveRows(r.offers.value)| && n <= |r.offers.value|
    ensures r.offers.Some? && (forall k :: 0 <= k < |r.offers.value| ==> !r.offers.value[k].is_active) ==> n == 0
  {
    if r.offers.Some? then
      var a := ActiveRows(r.offers.value);
      assert |a| > 0 ==> a[0] in r.offers.value;
      |a|
    else 0
  }

  /** `soldOutItems`: never more than `totalMenuItems`. */
  function SoldOutItems(r: RestaurantRecord): (n: nat)
    ensures n <= TotalMenuItems(r)
    ensures r.menu_categories.None? ==> n == 0
    ensures r.menu_categories.Some? ==> n == |SoldOut(AllItems(r.menu_categories.value))|
  {
    if r.menu_categories.Some? then
      TotalsCountAllItems(r.menu_categories.value);
      SoldOutTotal(r.menu_categories.value)
    else 0
  }

  /** The Categories tile. */
  function CategoryCount(r: RestaurantRecord): (n: nat)
    ensures r.menu_categories.None? ==> n == 0
    ensures r.menu_categories.Some? ==> n == |r.menu_categories.value|
  {
    if r.menu_categories.Some? then |r.menu_categories.value| else 0
  }
}

=== FILE: admin_signup.dfy ===
/** The two-step owner sign-up: account checks on step 1, restaurant details
    on step 2, and the URL slug derived from the restaurant name. Only ASCII
    letters are lower-cased; every other character counts as a separator. */
module AdminSignup {
  import opened Types

  // ---------------------------------------------------------------------------
  // Slug
  // ---------------------------------------------------------------------------

  /** The characters `[a-z0-9]` keeps. */
  predicate IsLowerAlnum(c: char)
  {
    'a' <= c <= 'z' || '0' <= c <= '9'
  }

  /** The characters a slug may contain. */
  predicate IsSlugChar(c: char)
  {
    IsLowerAlnum(c) || c == '-'
  }

  predicate IsUpperAscii(c: char)
  {
    'A' <= c <= 'Z'
  }

  function LowerChar(c: char): (d: char)
    ensures !IsUpperAscii(d)
    ensures !IsUpperAscii(c) ==> d == c
    ensures IsUpperAscii(c) ==> IsLowerAlnum(d) && d as int == c as int + 32
  {
    if IsUpperAscii(c) then (c as int + 32) as char else c
  }

  /** `toLowerCase()` on the ASCII letters. */
  function ToLower(s: string): (r: string)
    ensures |r| == |s|
    ensures forall i :: 0 <= i < |r| ==> !IsUpperAscii(r[i])
    ensures forall i :: 0 <= i < |s| ==> r[i] == LowerChar(s[i])
  {
    seq(|s|, i requires 0 <= i < |s| => LowerChar(s[i]))
  }

  /** Lower-casing leaves a text without capitals as it is. */
  lemma ToLowerNoCapitals(s: string)
    requires forall i :: 0 <= i < |s| ==> !IsUpperAscii(s[i])
    ensures ToLower(s) == s
  {
  }

  /** `s` without its leading run of separators. */
  function SkipSeparators(s: string): (r: string)
    ensures |r| <= |s|
    ensures r == [] || IsLowerAlnum(r[0])
    ensures |s| > 0 && !IsLowerAlnum(s[0]) ==> |r| < |s|
  {
    if s == [] || IsLowerAlnum(s[0]) then s else SkipSeparators(s[1..])
  }

  /** What is skipped is exactly the leading run of separators: the result is
      the suffix of `s` after it. */
  lemma {:induction false} SkipSeparatorsDropsRun(s: string)
    ensures var r := SkipSeparators(s);
      r == s[|s| - |r|..] && forall i :: 0 <= i < |s| - |r| ==> !IsLowerAlnum(s[i])
  {
    if s != [] && !IsLowerAlnum(s[0]) {
      SkipSeparatorsDropsRun(s[1..]);
    }
  }

  /** The leading maximal run of `[a-z0-9]` of `s`. */
  function TakeWord(s: string): (w: string)
    ensures |w| <= |s| && w == s[..|w|]
    ensures forall i :: 0 <= i < |w| ==> IsLowerAlnum(w[i])
    ensures |w| == |s| || !IsLowerAlnum(s[|w|])
    ensures |s| > 0 && IsLowerAlnum(s[0]) ==> |w| > 0
  {
    if s == [] || !IsLowerAlnum(s[0]) then [] else [s[0]] + TakeWord(s[1..])
  }

  predicate NoDoubleDash(s: string)
  {
    forall i :: 0 <= i < |s| - 1 ==> !(s[i] == '-' && s[i + 1] == '-')
  }

  predicate AllSlugChars(s: string)
  {
    forall i :: 0 <= i < |s| ==> IsSlugChar(s[i])
  }

  /** `replace(/[^a-z0-9]+/g, '-')`: every maximal run of separators becomes
      one dash. */
  function CollapseSeparators(s: string): (r: string)
    decreases |s|
    ensures (|r| > 0 && r[0] == '-') <==> (|s| > 0 && !IsLowerAlnum(s[0]))
    ensures |s| > 0 ==> |r| > 0
  {
    if s == [] then []
    else if IsLowerAlnum(s[0]) then [s[0]] + CollapseSeparators(s[1..])
    else "-" + CollapseSeparators(SkipSeparators(s))
  }

  /** The collapsed text holds only slug characters and no two dashes in a
      row. */
  lemma {:induction false} CollapseIsClean(s: string)
    ensures AllSlugChars(CollapseSeparators(s)) && NoDoubleDash(CollapseSeparators(s))
    decreases |s|
  {
    if s != [] {
      var head := if IsLowerAlnum(s[0]) then [s[0]] else "-";
      var rest := if IsLowerAlnum(s[0]) then s[1..] else SkipSeparators(s);
      CollapseIsClean(rest);
      var t := CollapseSeparators(rest);
      assert CollapseSeparators(s) == head + t;
      assert head == "-" ==> |t| == 0 || t[0] != '-';
      ConsClean(head[0], t);
    }
  }

  /** Prepending a slug character keeps a text clean unless it makes a
      double dash. */
  lemma ConsClean(c: char, t: string)
    requires IsSlugChar(c) && AllSlugChars(t) && NoDoubleDash(t)
    requires c == '-' ==> |t| == 0 || t[0] != '-'
    ensures AllSlugChars([c] + t) && NoDoubleDash([c] + t)
  {
    var u := [c] + t;
    forall i | 0 <= i < |u| - 1
      ensures !(u[i] == '-' && u[i + 1] == '-')
    {
      if i > 0 {
        assert u[i] == t[i - 1] && u[i + 1] == t[i];
      }
    }
  }

  function DropLeadingDash(s: string): string
  {
    if |s| > 0 && s[0] == '-' then s[1..] else s
  }

  function DropTrailingDash(s: string): string
  {
    if |s| > 0 && s[|s| - 1] == '-' then s[..|s| - 1] else s
  }

  /** `replace(/(^-|-$)/g, '')`: one dash off each end. */
  function DropEdgeDashes(s: string): string
  {
    DropTrailingDash(DropLeadingDash(s))
  }

  /** Dropping the edge dashes of a clean text leaves it clean, with no dash
      at either end. */
  lemma DropEdgeDashesClean(c: string)
    requires AllSlugChars(c) && NoDoubleDash(c)
    ensures var u := DropEdgeDashes(c);
      && AllSlugChars(u) && NoDoubleDash(u)
      && (|u| > 0 ==> u[0] != '-' && u[|u| - 1] != '-')
  {
    var t := DropLeadingDash(c);
    if |c| > 1 && c[0] == '-' {
      assert c[1] != '-';
    }
    assert AllSlugChars(t) && NoDoubleDash(t) by {
      if |c| > 0 && c[0] == '-' {
        forall i | 0 <= i < |t| - 1
          ensures !(t[i] == '-' && t[i + 1] == '-')
        {
          assert t[i] == c[i + 1] && t[i + 1] == c[i + 2];
        }
      }
    }
    var u := DropTrailingDash(t);
    if |t| > 1 && t[|t| - 1] == '-' {
      assert t[|t| - 2] != '-';
    }
  }

  /** The slug of a restaurant name: lower-case, separators collapsed to one
      dash, one dash dropped at each end. */
  function Slug(name: string): (slug: string)
    ensures AllSlugChars(slug)
    ensures NoDoubleDash(slug)
    ensures |slug| > 0 ==> slug[0] != '-' && slug[|slug| - 1] != '-'
  {
    var c := CollapseSeparators(ToLower(name));
    CollapseIsClean(ToLower(name));
    DropEdgeDashesClean(c);
    DropEdgeDashes(c)
  }

  /** The maximal `[a-z0-9]` runs of `s`, in order. */
  function Words(s: string): (ws: seq<string>)
    decreases |s|
    ensures forall k :: 0 <= k < |ws| ==> |ws[k]| > 0
    ensures |s| > 0 && IsLowerAlnum(s[0]) ==> |ws| > 0
  {
    if s == [] then []
    else if !IsLowerAlnum(s[0]) then Words(SkipSeparators(s))
    else var w := TakeWord(s); [w] + Words(s[|w|..])
  }

  /** The words joined by single dashes. */
  function JoinWithDash(ws: seq<string>): string
  {
    if ws == [] then []
    else if |ws| == 1 then ws[0]
    else ws[0] + "-" + JoinWithDash(ws[1..])
  }

  /** A run of kept characters passes through the collapse unchanged. */
  lemma {:induction false} CollapseWordPrefix(w: string, r: string)
    requires forall i :: 0 <= i < |w| ==> IsLowerAlnum(w[i])
    ensures CollapseSeparators(w + r) == w + CollapseSeparators(r)
    decreases |w|
  {
    if w == [] {
      assert w + r == r;
    } else {
      var x := w + r;
      assert x[0] == w[0] && IsLowerAlnum(x[0]);
      assert x[1..] == w[1..] + r;
      assert forall i :: 0 <= i < |w[1..]| ==> IsLowerAlnum(w[1..][i]) by {
        forall i | 0 <= i < |w[1..]| ensures IsLowerAlnum(w[1..][i]) {
          assert w[1..][i] == w[i + 1];
        }
      }
      CollapseWordPrefix(w[1..], r);
      assert CollapseSeparators(x) == [w[0]] + (w[1..] + CollapseSeparators(r));
      assert [w[0]] + (w[1..] + CollapseSeparators(r)) == w + CollapseSeparators(r);
    }
  }

  lemma DropTrailingOfWord(w: string)
    requires |w| > 0 && IsLowerAlnum(w[|w| - 1])
    ensures DropTrailingDash(w) == w
    ensures DropTrailingDash(w + "-") == w
  {
    assert (w + "-")[..|w|] == w;
  }

  lemma DropTrailingAfterWord(w: string, c: string)
    requires |c| > 0
    ensures DropTrailingDash(w + "-" + c) == w + "-" + DropTrailingDash(c)
  {
    var x := w + "-" + c;
    assert x[|x| - 1] == c[|c| - 1];
    if c[|c| - 1] == '-' {
      assert x[..|x| - 1] == w + "-" + c[..|c| - 1];
    }
  }

  lemma JoinCons(w: string, ws: seq<string>)
    requires |ws| > 0
    ensures JoinWithDash([w] + ws) == w + "-" + JoinWithDash(ws)
  {
    assert ([w] + ws)[1..] == ws;
  }

  /** For a text that does not start with a separator, the collapsed text
      without its trailing dash is its words joined by dashes. */
  lemma {:induction false} CollapsedIsJoinedWords(s: string)
    requires s == [] || IsLowerAlnum(s[0])
    ensures DropTrailingDash(CollapseSeparators(s)) == JoinWithDash(Words(s))
    decreases |s|
  {
    if s != [] {
      var w := TakeWord(s);
      var r := s[|w|..];
      assert s == w + r;
      assert IsLowerAlnum(w[|w| - 1]);
      CollapseWordPrefix(w, r);
      assert Words(s) == [w] + Words(r);
      if r == [] {
        assert CollapseSeparators(s) == w;
        DropTrailingOfWord(w);
      } else {
        var r' := SkipSeparators(r);
        assert CollapseSeparators(r) == "-" + CollapseSeparators(r');
        assert Words(r) == Words(r');
        if r' == [] {
          assert CollapseSeparators(s) == w + "-";
          DropTrailingOfWord(w);
        } else {
          CollapsedIsJoinedWords(r');
          var c' := CollapseSeparators(r');
          assert CollapseSeparators(s) == w + "-" + c';
          DropTrailingAfterWord(w, c');
          JoinCons(w, Words(r'));
        }
      }
    }
  }

  /** The slug is the maximal `[a-z0-9]` runs of the lower-cased name, in
      order, joined by single dashes. */
  lemma SlugIsJoinedWords(name: string)
    ensures Slug(name) == JoinWithDash(Words(ToLower(name)))
  {
    var s := ToLower(name);
    if s != [] && !IsLowerAlnum(s[0]) {
      var s' := SkipSeparators(s);
      assert CollapseSeparators(s) == "-" + CollapseSeparators(s');
      assert DropLeadingDash("-" + CollapseSeparators(s')) == CollapseSeparators(s');
      CollapsedIsJoinedWords(s');
    } else {
      CollapsedIsJoinedWords(s);
    }
  }

  /** A text of slug characters without a double dash collapses to itself. */
  lemma {:induction false} CollapseOfClean(t: string)
    requires AllSlugChars(t) && NoDoubleDash(t)
    ensures CollapseSeparators(t) == t
    decreases |t|
  {
    if t != [] {
      assert AllSlugChars(t[1..]) && NoDoubleDash(t[1..]) by {
        forall i | 0 <= i < |t[1..]| - 1
          ensures !(t[1..][i] == '-' && t[1..][i + 1] == '-')
        {
          assert t[1..][i] == t[i + 1] && t[1..][i + 1] == t[i + 2];
        }
      }
      CollapseOfClean(t[1..]);
      if !IsLowerAlnum(t[0]) {
        assert t[0] == '-';
        assert SkipSeparators(t) == SkipSeparators(t[1..]);
        if |t| > 1 {
          assert t[1] != '-';
        }
        assert SkipSeparators(t[1..]) == t[1..];
      }
      assert t == [t[0]] + t[1..];
    }
  }

  /** Normalising a slug again changes nothing. */
  lemma SlugIdempotent(name: string)
    ensures Slug(Slug(name)) == Slug(name)
  {
    var t := Slug(name);
    assert forall i :: 0 <= i < |t| ==> !IsUpperAscii(t[i]) by {
      forall i | 0 <= i < |t| ensures !IsUpperAscii(t[i]) {
        assert IsSlugChar(t[i]);
      }
    }
    ToLowerNoCapitals(t);
    CollapseOfClean(t);
    assert CollapseSeparators(ToLower(t)) == t;
    assert DropLeadingDash(t) == t;
    assert DropTrailingDash(t) == t;
  }

  /** Names made only of separators have an empty slug. */
  lemma SlugOfSeparatorsOnly()
    ensures Slug("") == ""
    ensures Slug("--") == ""
    ensures Slug(" & ") == ""
  {
    assert ToLower("--") == "--";
    assert SkipSeparators("--") == [] by { assert "--"[1..] == "-" && "-"[1..] == []; }
    assert ToLower(" & ") == " & ";
    assert SkipSeparators(" & ") == [] by {
      assert " & "[1..] == "& " && "& "[1..] == " " && " "[1..] == [];
    }
  }

  /** A name with a capital, an inner and a trailing separator. */
  lemma SlugOfShortName()
    ensures Slug("A b!") == "a-b"
  {
    var lower := ToLower("A b!");
    assert lower == "a b!" by {
      assert lower[0] == 'a' && lower[1] == ' ' && lower[2] == 'b' && lower[3] == '!';
    }
    assert lower == "a" + " b!";
    CollapseWordPrefix("a", " b!");
    assert SkipSeparators(" b!") == "b!" by { assert " b!"[1..] == "b!"; }
    assert "b!" == "b" + "!";
    CollapseWordPrefix("b", "!");
    assert SkipSeparators("!") == [] by { assert "!"[1..] == []; }
    assert CollapseSeparators("!") == "-";
    var c := CollapseSeparators(lower);
    assert c == "a-b-";
    assert DropLeadingDash(c) == c;
    assert DropTrailingDash(c) == "a-b" by { assert c[..3] == "a-b"; }
  }

  /** A run of several separators inside a name becomes one dash. */
  lemma SlugOfDoubledSeparator()
    ensures Slug("a  b") == "a-b"
  {
    ToLowerNoCapitals("a  b");
    assert "a  b" == "a" + "  b";
    CollapseWordPrefix("a", "  b");
    assert SkipSeparators("  b") == "b" by {
      assert "  b"[1..] == " b" && " b"[1..] == "b";
    }
    assert "b" == "b" + [];
    CollapseWordPrefix("b", []);
    var c := CollapseSeparators("a  b");
    assert c == "a-b";
    assert DropLeadingDash(c) == c;
    assert DropTrailingDash(c) == c;
  }

  // ---------------------------------------------------------------------------
  // Wizard
  // ---------------------------------------------------------------------------

  const PasswordMismatch := "Passwords do not match"
  const PasswordTooShort := "Password must be at least 6 characters"
  const MinPasswordLength := 6

  /** Step 1's checks: a mismatch is reported before a short password. The
      length is JavaScript's, in UTF-16 code units. */
  function PasswordError(password: string, confirmPassword: string): (error: Option<string>)
    ensures error.None? <==> password == confirmPassword && Utf16Length(password) >= MinPasswordLength
    ensures password != confirmPassword ==> error == Some(PasswordMismatch)
    ensures password == confirmPassword && Utf16Length(password) < MinPasswordLength ==>
      error == Some(PasswordTooShort)
  {
    if password != confirmPassword then Some(PasswordMismatch)
    else if Utf16Length(password) < MinPasswordLength then Some(PasswordTooShort)
    else None
  }

  /** Characters above U+FFFF count twice: three emoji make a long enough
      password, five ASCII letters do not. */
  lemma PasswordLengthInCodeUnits()
    ensures PasswordError("\U{1F600}\U{1F600}\U{1F600}", "\U{1F600}\U{1F600}\U{1F600}") == None
    ensures PasswordError("abcde", "abcde") == Some(PasswordTooShort)
  {
    var e := "\U{1F600}\U{1F600}\U{1F600}";
    assert e[1..][1..][1..] == [];
    assert "abcde"[1..][1..][1..][1..][1..] == [];
  }

  /** The restaurant details of step 2. */
  datatype RestaurantDetails = RestaurantDetails(
    name: string,
    description_en: string,
    description_de: string,
    logo_url: string,
    hero_image_url: string)

  /** What `createRestaurant` receives: the details plus the slug. */
  datatype NewRestaurant = NewRestaurant(details: RestaurantDetails, slug: string)

  /** The outcome of `signUp`. */
  datatype SignUpResult = SignedUp | SignUpRefused(error: string) | SignUpThrew

  /** What `signUp` receives. */
  datatype SignUpRequest = SignUpRequest(email: string, password: string)

  /** The outcome of `createRestaurant`. */
  datatype CreateResult = Created | CreateRefused(error: string) | CreateThrew

  /** `message || fallback`. */
  function OrElse(message: string, fallback: string): (r: string)
    ensures r != ""  || fallback == ""
    ensures message != "" ==> r == message
  {
    if message != "" then message else fallback
  }

  /** The sign-up page state. */
  class SignupWizard {
    var step: int
    var error: string
    var loading: bool
    var email: string
    var password: string
    var confirmPassword: string
    var details: RestaurantDetails
    var leftToHome: bool
    var wentToDashboard: bool

    predicate Valid()
      reads this
    {
      step == 1 || step == 2
    }

    constructor ()
      ensures Valid() && step == 1 && error == "" && !loading
      ensures email == "" && password == "" && confirmPassword == ""
      ensures details == RestaurantDetails("", "", "", "", "")
      ensures !leftToHome && !wentToDashboard
    {
      step := 1;
      error := "";
      loading := false;
      email, password, confirmPassword := "", "", "";
      details := RestaurantDetails("", "", "", "", "");
      leftToHome, wentToDashboard := false, false;
    }

    /** Typing into the account fields. */
    method SetAccount(email': string, password': string, confirmPassword': string)
      modifies this
      ensures email == email' && password == password' && confirmPassword == confirmPassword'
      ensures step == old(step) && error == old(error) && details == old(details)
      ensures loading == old(loading) && leftToHome == old(leftToHome)
      ensures wentToDashboard == old(wentToDashboard)
    {
      email, password, confirmPassword := email', password', confirmPassword';
    }

    /** Typing into the restaurant fields. */
    method SetDetails(details': RestaurantDetails)
      modifies this
      ensures details == details'
      ensures step == old(step) && error == old(error) && password == old(password)
      ensures email == old(email) && confirmPassword == old(confirmPassword)
      ensures loading == old(loading) && leftToHome == old(leftToHome)
      ensures wentToDashboard == old(wentToDashboard)
    {
      details := details';
    }

    /** `handleUserSubmit`: clears the error, then either reports the first
        failed check and stays, or moves to step 2. */
    method HandleUserSubmit()
      requires Valid()
      modifies this
      ensures Valid()
      ensures var e := PasswordError(old(password), old(confirmPassword));
        && (e.Some? ==> error == e.value && step == old(step))
        && (e.None? ==> error == "" && step == 2)
      ensures email == old(email) && password == old(password) && confirmPassword == old(confirmPassword)
      ensures details == old(details) && loading == old(loading)
      ensures leftToHome == old(leftToHome) && wentToDashboard == old(wentToDashboard)
    {
      error := "";
      if password != confirmPassword {
        error := PasswordMismatch;
        return;
      }
      if Utf16Length(password) < MinPasswordLength {
        error := PasswordTooShort;
        return;
      }
      step := 2;
    }

    /** The header's back arrow: leaves the wizard on step 1, returns to
        step 1 otherwise. */
    method Back()
      requires Valid()
      modifies this
      ensures Valid() && step == 1
      ensures old(step) == 1 ==> leftToHome
      ensures old(step) == 2 ==> leftToHome == old(leftToHome)
      ensures error == old(error) && password == old(password) && details == old(details)
      ensures email == old(email) && confirmPassword == old(confirmPassword)
      ensures loading == old(loading) && wentToDashboard == old(wentToDashboard)
    {
      if step == 1 {
        leftToHome := true;
      } else {
        step := 1;
      }
    }

    /** `handleRestaurantSubmit`: signs the owner up, and only then creates
        the restaurant under the slug of its name; the two outcomes are given.
        Returns the sign-up request, which is always made, and the
        restaurant request when one was made. */
    method HandleRestaurantSubmit(signUp: SignUpResult, create: CreateResult)
      returns (account: SignUpRequest, request: Option<NewRestaurant>)
      requires Valid()
      modifies this
      ensures Valid() && step == old(step)
      ensures account == SignUpRequest(old(email), old(password))
      ensures email == old(email) && password == old(password)
      ensures confirmPassword == old(confirmPassword) && details == old(details)
      ensures leftToHome == old(leftToHome)
      ensures request.Some? <==> signUp.SignedUp?
      ensures request.Some? ==> request.value == NewRestaurant(old(details), Slug(old(details).name))
      ensures signUp.SignUpRefused? ==> error == OrElse(signUp.error, "Failed to create account") && !loading
      ensures signUp.SignUpThrew? ==> error == "An unexpected error occurred" && !loading
      ensures signUp.SignedUp? && create.CreateRefused? ==>
        error == OrElse(create.error, "Failed to create restaurant") && !loading
      ensures signUp.SignedUp? && create.CreateThrew? ==>
        error == "An unexpected error occurred" && !loading
      ensures wentToDashboard <==> old(wentToDashboard) || (signUp.SignedUp? && create.Created?)
      ensures signUp.SignedUp? && create.Created? ==> error == "" && loading
    {
      loading := true;
      error := "";
      account := SignUpRequest(email, password);
      request := None;
      match signUp {
        case SignUpThrew =>
          error := "An unexpected error occurred";
          loading := false;
          return;
        case SignUpRefused(e) =>
          error := OrElse(e, "Failed to create account");
          loading := false;
          return;
        case SignedUp =>
      }
      var slug := Slug(details.name);
      request := Some(NewRestaurant(details, slug));
      match create {
        case CreateThrew =>
          error := "An unexpected error occurred";
          loading := false;
        case CreateRefused(e) =>
          error := OrElse(e, "Failed to create restaurant");
          loading := false;
        case Created =>
          wentToDashboard := true;
      }
    }
  }
}

=== FILE: customer_menu.dfy ===
/** The customer menu page: the conversion of stored rows into the view
    objects the shared components take, the category tabs and the one
    category shown at a time. */
module CustomerMenu {
  import opened Types
  import AdminDashboard
  import OffersSection
  import DietaryIcons

  /** The picture shown for an item without one. */
  const DefaultImage := "https://images.pexels.com/photos/1633578/pexels-photo-1633578.jpeg"

  /** `dbItem.image_url || DefaultImage`. */
  function ImageOf(url: Option<string>): (image: string)
    ensures image != ""
    ensures url.Some? && url.value != "" ==> image == url.value
    ensures url.None? || url.value == "" ==> image == DefaultImage
  {
    if url.Some? && url.value != "" then url.value else DefaultImage
  }

  /** `convertMenuItem`: a stored item as the view object. */
  function ConvertMenuItem(row: MenuItemRow): (item: MenuItem)
    ensures item.id == row.id && item.price == row.price && item.soldOut == row.is_sold_out
    ensures item.name == Text(row.name_en, row.name_de)
    ensures item.description == Text(row.description_en, row.description_de)
    ensures item.image == ImageOf(row.image_url)
    ensures item.dietaryInfo.vegetarian == row.is_vegetarian && item.dietaryInfo.vegan == row.is_vegan
    ensures item.dietaryInfo.spiceLevel == row.spice_level && item.dietaryInfo.meatType == row.meat_type
  {
    MenuItem(
      row.id,
      Text(row.name_en, row.name_de),
      Text(row.description_en, row.description_de),
      row.price,
      ImageOf(row.image_url),
      DietaryInfo(row.is_vegetarian, row.is_vegan, row.spice_level, row.meat_type),
      row.is_sold_out)
  }

  /** A converted item shows dietary badges exactly when its row is
      vegetarian, vegan, spicy or has a non-empty meat type. */
  lemma ConvertedItemBadges(row: MenuItemRow)
    ensures DietaryIcons.RendersIcons(ConvertMenuItem(row).dietaryInfo) <==>
      row.is_vegetarian || row.is_vegan || row.spice_level > 0
      || (row.meat_type.Some? && row.meat_type.value != "")
  {
  }

  /** One stored offer in view format. */
  function LegacyOffer(row: OfferRow): (o: Offer)
  {
    Offer(row.id, Text(row.title_en, row.title_de), Text(row.description_en, row.description_de),
          row.valid_days, Hours(row.valid_hours_start, row.valid_hours_end),
          row.is_active, row.discount_percentage)
  }

  /** The stored form of a view offer. */
  function RowOfOffer(o: Offer): (row: OfferRow)
  {
    OfferRow(o.id, o.title.en, o.title.de, o.description.en, o.description.de,
             o.validDays, o.validHours.start, o.validHours.end, o.active, o.discount)
  }

  /** The two formats carry the same information. */
  lemma LegacyOfferRoundTrip(row: OfferRow, o: Offer)
    ensures RowOfOffer(LegacyOffer(row)) == row
    ensures LegacyOffer(RowOfOffer(o)) == o
    ensures LegacyOffer(row).active == row.is_active
  {
  }

  /** `restaurant.offers?.map(...) || []`: same length and order, each row
      converted; nothing when the list is missing. */
  function LegacyOffers(offers: Option<seq<OfferRow>>): (r: seq<Offer>)
    ensures offers.None? ==> r == []
    ensures offers.Some? ==> |r| == |offers.value|
    ensures offers.Some? ==> forall k :: 0 <= k < |r| ==> r[k] == LegacyOffer(offers.value[k])
  {
    match offers
    case None => []
    case Some(rows) => seq(|rows|, k requires 0 <= k < |rows| => LegacyOffer(rows[k]))
  }

  /** `restaurant_customization ? {...} : null`: present exactly when the
      stored settings are, with each field copied. */
  function LegacyCustomization(c: Option<CustomizationRow>): (r: Option<Customization>)
    ensures r.Some? <==> c.Some?
    ensures c.Some? ==> r.value.welcomeText == Text(c.value.welcome_text_en, c.value.welcome_text_de)
    ensures c.Some? ==> r.value.primaryColor == c.value.primary_color
    ensures c.Some? ==> r.value.secondaryColor == c.value.secondary_color
    ensures c.Some? ==> r.value.accentColor == c.value.accent_color
    ensures c.Some? ==> r.value.fontStyle == c.value.font_style
  {
    match c
    case None => None
    case Some(row) =>
      Some(Customization(Text(row.welcome_text_en, row.welcome_text_de),
                         row.primary_color, row.secondary_color, row.accent_color, row.font_style))
  }

  lemma {:induction false} LegacyActiveCount(rows: seq<OfferRow>)
    ensures |OffersSection.SectionOffers(Some(LegacyOffers(Some(rows))))|
         == |AdminDashboard.ActiveRows(rows)|
  {
    if rows != [] {
      LegacyActiveCount(rows[1..]);
      var all := LegacyOffers(Some(rows));
      assert all == [LegacyOffer(rows[0])] + LegacyOffers(Some(rows[1..]));
      OffersCarouselAppend(all);
    }
  }

  /** The filter splits at the first offer. */
  lemma OffersCarouselAppend(all: seq<Offer>)
    requires |all| > 0
    ensures OffersSection.SectionOffers(Some(all))
         == OffersSection.SectionOffers(Some([all[0]])) + OffersSection.SectionOffers(Some(all[1..]))
  {
    assert all == [all[0]] + all[1..];
    OffersSection.OffersCarousel.ActiveOffersAppend([all[0]], all[1..]);
  }

  /** The customer sees as many offers as the dashboard counts as active. */
  lemma CustomerSeesDashboardActiveOffers(r: RestaurantRecord)
    ensures |OffersSection.SectionOffers(Some(LegacyOffers(r.offers)))| == AdminDashboard.ActiveOffers(r)
  {
    if r.offers.Some? {
      LegacyActiveCount(r.offers.value);
    }
  }

  /** A tab's and a heading's text: German names in German, English names
      otherwise. */
  function CategoryLabel(c: CategoryRow, lang: Lang): (caption: string)
    ensures lang == De ==> caption == c.name_de
    ensures lang != De ==> caption == c.name_en
  {
    if lang == De then c.name_de else c.name_en
  }

  /** The categories whose id is the active one, in order. */
  function ShownCategories(cats: seq<CategoryRow>, active: string): (r: seq<CategoryRow>)
    ensures |r| <= |cats|
    ensures forall c :: c in r <==> c in cats && c.id == active
  {
    if cats == [] then []
    else (if cats[0].id == active then [cats[0]] else []) + ShownCategories(cats[1..], active)
  }

  predicate UniqueIds(cats: seq<CategoryRow>)
  {
    forall i, j :: 0 <= i < j < |cats| ==> cats[i].id != cats[j].id
  }

  /** No category with the active id: nothing is shown. */
  lemma {:induction false} NoneShown(cats: seq<CategoryRow>, active: string)
    requires forall k :: 0 <= k < |cats| ==> cats[k].id != active
    ensures ShownCategories(cats, active) == []
  {
    if cats != [] {
      NoneShown(cats[1..], active);
    }
  }

  /** With distinct ids, choosing a category's id shows that category and
      no other. */
  lemma {:induction false} ShowsExactlyOne(cats: seq<CategoryRow>, k: int)
    requires UniqueIds(cats) && 0 <= k < |cats|
    ensures ShownCategories(cats, cats[k].id) == [cats[k]]
  {
    if k == 0 {
      NoneShown(cats[1..], cats[0].id);
    } else {
      assert UniqueIds(cats[1..]);
      ShowsExactlyOne(cats[1..], k - 1);
      assert cats[0].id != cats[k].id;
    }
  }

  /** `restaurant?.menu_categories && restaurant.menu_categories.length > 0`. */
  predicate HasCategories(restaurant: Option<RestaurantRecord>)
  {
    restaurant.Some? && restaurant.value.menu_categories.Some?
    && |restaurant.value.menu_categories.value| > 0
  }

  /** The page's selected tab. */
  class MenuPage {
    var activeCategory: string

    constructor ()
      ensures activeCategory == ""
    {
      activeCategory := "";
    }

    /** The effect on a (re)loaded restaurant: the first category becomes
        active when there is one; otherwise the choice stays. */
    method OnRestaurantLoaded(restaurant: Option<RestaurantRecord>)
      modifies this
      ensures HasCategories(restaurant) ==>
        activeCategory == restaurant.value.menu_categories.value[0].id
      ensures !HasCategories(restaurant) ==> activeCategory == old(activeCategory)
    {
      if HasCategories(restaurant) {
        activeCategory := restaurant.value.menu_categories.value[0].id;
      }
    }

    /** A tab click. */
    method SelectCategory(id: string)
      modifies this
      ensures activeCategory == id
    {
      activeCategory := id;
    }
  }

  /** After loading a restaurant with distinct category ids, exactly its
      first category is shown. */
  method LoadShowsFirstCategory(page: MenuPage, r: RestaurantRecord) returns (shown: seq<CategoryRow>)
    requires r.menu_categories.Some? && |r.menu_categories.value| > 0
    requires UniqueIds(r.menu_categories.value)
    modifies page
    ensures shown == [r.menu_categories.value[0]]
  {
    page.OnRestaurantLoaded(Some(r));
    shown := ShownCategories(r.menu_categories.value, page.activeCategory);
    ShowsExactlyOne(r.menu_categories.value, 0);
  }
}

=== FILE: customer_welcome.dfy ===
/** The customer landing page: the description and welcome line in the
    chosen language and the offers handed to the offers section. The row
    conversions are the customer menu's, which this page repeats. */
module CustomerWelcome {
  import opened Types
  import CustomerMenu
  import OffersSection

  /** The hero and About text: German in German, English otherwise. */
  function Description(r: RestaurantRecord, lang: Lang): (text: string)
    ensures lang == De ==> text == r.description_de
    ensures lang != De ==> text == r.description_en
  {
    if lang == De then r.description_de else r.description_en
  }

  /** The welcome line: shown exactly when there are settings, in the
      chosen language unless that text is empty, else in English. */
  function WelcomeText(c: Option<Customization>, lang: Lang): (line: Option<string>)
    ensures line.Some? <==> c.Some?
    ensures c.Some? && lang == De && c.value.welcomeText.de != "" ==> line.value == c.value.welcomeText.de
    ensures c.Some? && (lang == En || c.value.welcomeText.de == "") ==> line.value == c.value.welcomeText.en
  {
    match c
    case None => None
    case Some(custom) => Some(Localized(custom.welcomeText, lang))
  }

  /** On a stored restaurant the welcome line appears exactly when it has
      settings, and is one of its two stored welcome texts. */
  lemma WelcomeFromRecord(r: RestaurantRecord, lang: Lang)
    ensures var line := WelcomeText(CustomerMenu.LegacyCustomization(r.restaurant_customization), lang);
      && (line.Some? <==> r.restaurant_customization.Some?)
      && (line.Some? ==> line.value == r.restaurant_customization.value.welcome_text_en
                         || line.value == r.restaurant_customization.value.welcome_text_de)
  {
  }

  /** `o` is the conversion of an active row of `rows`. */
  predicate ConvertsActiveRow(rows: seq<OfferRow>, o: Offer)
  {
    exists k :: 0 <= k < |rows| && rows[k].is_active && o == CustomerMenu.LegacyOffer(rows[k])
  }

  /** The offers section of this page shows exactly the stored offers that
      are active, converted. */
  lemma WelcomeSectionOffers(r: RestaurantRecord, o: Offer)
    ensures o in OffersSection.SectionOffers(Some(CustomerMenu.LegacyOffers(r.offers))) <==>
      r.offers.Some? && ConvertsActiveRow(r.offers.value, o)
  {
    var all := CustomerMenu.LegacyOffers(r.offers);
    if o in OffersSection.SectionOffers(Some(all)) {
      var k :| 0 <= k < |all| && all[k] == o;
      assert r.offers.value[k].is_active;
    }
    if r.offers.Some? && ConvertsActiveRow(r.offers.value, o) {
      var k :| 0 <= k < |r.offers.value|
        && r.offers.value[k].is_active && o == CustomerMenu.LegacyOffer(r.offers.value[k]);
      assert all[k] == o;
    }
  }
}

=== FILE: dietary_icons.dfy ===
/** The dietary badges of a menu item: one leaf badge (vegan before
    vegetarian), a meat badge and a spice badge, in that order. Labels go
    through the translation lookup `t(key, fallback)`, which is not part of
    this model; a label is kept as the key and its bilingual fallback. */
module DietaryIcons {
  import opened Types

  datatype IconKind = Leaf | Meat | Flame

  /** A `t(key, { en, de })` lookup. */
  datatype Translation = Translation(key: string, fallback: Text)

  /** One badge; `suffix` follows the translated label (the spice level). */
  datatype Icon = Icon(kind: IconKind, name: Translation, suffix: string, color: string)

  const LeafColor := "text-green-600 bg-green-100"
  const MeatColor := "text-red-600 bg-red-100"
  const FlameColor := "text-orange-600 bg-orange-100"

  const VeganIcon := Icon(Leaf, Translation("vegan", Text("Vegan", "Vegan")), "", LeafColor)
  const VegetarianIcon :=
    Icon(Leaf, Translation("vegetarian", Text("Vegetarian", "Vegetarisch")), "", LeafColor)

  function UpperChar(c: char): (d: char)
    ensures 'a' <= c <= 'z' ==> 'A' <= d <= 'Z' && d as int == c as int - 32
    ensures !('a' <= c <= 'z') ==> d == c
  {
    if 'a' <= c <= 'z' then (c as int - 32) as char else c
  }

  /** `s.charAt(0).toUpperCase() + s.slice(1)` on ASCII letters. */
  function Capitalized(s: string): (r: string)
    ensures |r| == |s|
    ensures |s| > 0 ==> r[0] == UpperChar(s[0]) && r[1..] == s[1..]
  {
    if s == [] then [] else [UpperChar(s[0])] + s[1..]
  }

  /** The German meat name: beef and chicken by name, anything else pork. */
  function GermanMeat(meatType: string): (de: string)
    ensures de in {"Rind", "Huhn", "Schwein"}
    ensures de == "Rind" <==> meatType == "beef"
    ensures de == "Huhn" <==> meatType == "chicken"
  {
    if meatType == "beef" then "Rind"
    else if meatType == "chicken" then "Huhn"
    else "Schwein"
  }

  /** The meat badge, keyed by the meat type itself. */
  function MeatIcon(meatType: string): Icon
  {
    Icon(Meat, Translation(meatType, Text(Capitalized(meatType), GermanMeat(meatType))), "", MeatColor)
  }

  /** ` (n/3)` after the spice word: the level's digits read back as the
      level. */
  function SpiceSuffix(level: nat): (s: string)
    ensures |s| >= 6 && s[..2] == " (" && s[|s| - 3..] == "/3)"
    ensures forall i :: 2 <= i < |s| - 3 ==> IsDigit(s[i])
    ensures DigitsValue(s[2..|s| - 3]) == level
  {
    var digits := NatText(level);
    var s := " (" + digits + "/3)";
    assert s[2..|s| - 3] == digits;
    NatTextValue(level);
    s
  }

  function SpiceIcon(level: nat): Icon
  {
    Icon(Flame, Translation("spicy", Text("Spicy", "Scharf")), SpiceSuffix(level), FlameColor)
  }

  /** A meat type is shown when it is present and not empty (a truthy
      string). */
  predicate HasMeat(info: DietaryInfo)
  {
    info.meatType.Some? && info.meatType.value != ""
  }

  function LeafIcons(info: DietaryInfo): seq<Icon>
  {
    if info.vegan then [VeganIcon] else if info.vegetarian then [VegetarianIcon] else []
  }

  function MeatIcons(info: DietaryInfo): seq<Icon>
  {
    if HasMeat(info) then [MeatIcon(info.meatType.value)] else []
  }

  function SpiceIcons(info: DietaryInfo): seq<Icon>
  {
    if info.spiceLevel > 0 then [SpiceIcon(info.spiceLevel)] else []
  }

  /** The badge list, as a value: leaf, then meat, then spice. */
  function IconList(info: DietaryInfo): seq<Icon>
  {
    LeafIcons(info) + MeatIcons(info) + SpiceIcons(info)
  }

  function Rank(k: IconKind): nat
  {
    match k
    case Leaf => 0
    case Meat => 1
    case Flame => 2
  }

  /** The component's list: successive conditional pushes. */
  method Icons(info: DietaryInfo) returns (icons: seq<Icon>)
    ensures icons == IconList(info)
  {
    icons := [];
    if info.vegan {
      icons := icons + [VeganIcon];
    } else if info.vegetarian {
      icons := icons + [VegetarianIcon];
    }
    assert icons == LeafIcons(info);
    if info.meatType.Some? && info.meatType.value != "" {
      var meatType := info.meatType.value;
      icons := icons + [MeatIcon(meatType)];
    }
    assert icons == LeafIcons(info) + MeatIcons(info);
    if info.spiceLevel > 0 {
      icons := icons + [SpiceIcon(info.spiceLevel)];
    }
  }

  /** How many badges there are: at most one leaf badge, vegan winning over
      vegetarian, a meat badge exactly for a non-empty meat type and a spice
      badge exactly for a positive level; at most three in all. */
  lemma IconCount(info: DietaryInfo)
    ensures var icons := IconList(info);
      var leaf := info.vegan || info.vegetarian;
      && |icons| <= 3
      && |icons| == (if leaf then 1 else 0) + (if HasMeat(info) then 1 else 0)
                    + (if info.spiceLevel > 0 then 1 else 0)
      && (leaf ==> icons[0] == if info.vegan then VeganIcon else VegetarianIcon)
  {
  }

  /** The kinds in the list: leaf first, then meat, then spice, each kind
      present only under its condition. */
  lemma IconKinds(info: DietaryInfo)
    ensures var icons := IconList(info);
      && (forall i :: 0 <= i < |icons| && icons[i].kind == Leaf ==>
            i == 0 && (info.vegan || info.vegetarian))
      && (forall i :: 0 <= i < |icons| && icons[i].kind == Meat ==> HasMeat(info))
      && (forall i :: 0 <= i < |icons| && icons[i].kind == Flame ==> info.spiceLevel > 0)
  {
    var l, m, f := LeafIcons(info), MeatIcons(info), SpiceIcons(info);
    var icons := IconList(info);
    assert icons == l + m + f;
    assert |l| <= 1 && |m| <= 1 && |f| <= 1;
    forall i | 0 <= i < |icons|
      ensures i < |l| ==> icons[i].kind == Leaf
      ensures |l| <= i < |l| + |m| ==> icons[i].kind == Meat
      ensures |l| + |m| <= i ==> icons[i].kind == Flame
    {
      if i < |l| {
        assert icons[i] == l[i];
      } else if i < |l| + |m| {
        assert icons[i] == m[i - |l|];
      } else {
        assert icons[i] == f[i - |l| - |m|];
      }
    }
  }

  /** The list is strictly ordered leaf, meat, spice. */
  lemma IconOrder(info: DietaryInfo)
    ensures var icons := IconList(info);
      forall i, j :: 0 <= i < j < |icons| ==> Rank(icons[i].kind) < Rank(icons[j].kind)
  {
    var icons := IconList(info);
    IconKinds(info);
    forall i, j | 0 <= i < j < |icons|
      ensures Rank(icons[i].kind) < Rank(icons[j].kind)
    {
      assert icons[i].kind == Leaf ==> i == 0;
    }
  }

  /** The meat badge's labels and the spice badge's suffix. */
  lemma IconLabels(info: DietaryInfo)
    ensures var icons := IconList(info);
      var meatAt := if info.vegan || info.vegetarian then 1 else 0;
      && (HasMeat(info) ==>
            (&& meatAt < |icons| && icons[meatAt].kind == Meat
             && icons[meatAt].name.fallback.en == Capitalized(info.meatType.value)
             && icons[meatAt].name.fallback.de == GermanMeat(info.meatType.value)))
      && (info.spiceLevel > 0 ==>
            (&& |icons| > 0 && icons[|icons| - 1].kind == Flame
             && icons[|icons| - 1].suffix == SpiceSuffix(info.spiceLevel)))
  {
    var l, m, f := LeafIcons(info), MeatIcons(info), SpiceIcons(info);
    assert IconList(info) == l + m + f;
  }

  /** The component renders nothing exactly when no badge applies. */
  function RendersIcons(info: DietaryInfo): (shown: bool)
    ensures shown <==> info.vegan || info.vegetarian || HasMeat(info) || info.spiceLevel > 0
  {
    IconCount(info);
    |IconList(info)| > 0
  }
}

=== FILE: local_store.dfy ===
/** The browser-storage data path: an event bus for change notifications, a
    store of restaurants keyed by id with offer and menu-item edits, and the
    offer validity check against a given moment. The storage itself is an
    in-memory map here; reading and writing JSON is not modelled. */
module LocalStore {
  import opened Types

  // ---------------------------------------------------------------------------
  // Event bus
  // ---------------------------------------------------------------------------

  /** A listener, known only by its identity: `off` compares with `!==`. */
  type Callback = nat

  /** What `saveRestaurant` hands to the listeners. */
  datatype Payload =
    | RestaurantPayload(restaurant: Restaurant)
    | RestaurantIdPayload(restaurantId: string)

  /** One call of a listener with its argument. */
  datatype Invocation = Invocation(callback: Callback, data: Payload)

  /** Dropping the head of a concatenation drops the head of its first part. */
  lemma TailOfAppend<T>(a: seq<T>, b: seq<T>)
    requires |a| > 0
    ensures (a + b)[0] == a[0] && (a + b)[1..] == a[1..] + b
  {
  }

  /** A non-empty list's elements are its head and its tail's elements. */
  lemma MultisetOfCons<T>(s: seq<T>)
    requires |s| > 0
    ensures multiset(s) == multiset{s[0]} + multiset(s[1..])
  {
    assert s == [s[0]] + s[1..];
  }

  lemma AppendAssociates<T>(x: seq<T>, y: seq<T>, z: seq<T>)
    ensures x + (y + z) == (x + y) + z
  {
  }

  /** The listener list without any occurrence of `cb` (`filter(x => x !== cb)`). */
  function Without(s: seq<Callback>, cb: Callback): (r: seq<Callback>)
    ensures cb !in r
    ensures forall x :: x in r <==> x in s && x != cb
    ensures |r| <= |s|
  {
    if s == [] then [] else (if s[0] == cb then [] else [s[0]]) + Without(s[1..], cb)
  }

  /** Removing a callback keeps every other callback as often as before. */
  lemma {:induction false} WithoutCounts(s: seq<Callback>, cb: Callback)
    ensures multiset(Without(s, cb)) == multiset(s)[cb := 0]
  {
    if s != [] {
      WithoutCounts(s[1..], cb);
      MultisetOfCons(s);
    }
  }

  /** Removing distributes over concatenation, so the relative order of the
      remaining callbacks is that of the original list. */
  lemma {:induction false} WithoutAppend(a: seq<Callback>, b: seq<Callback>, cb: Callback)
    ensures Without(a + b, cb) == Without(a, cb) + Without(b, cb)
  {
    if a == [] {
      assert a + b == b;
    } else {
      TailOfAppend(a, b);
      WithoutAppend(a[1..], b, cb);
      AppendAssociates(if a[0] == cb then [] else [a[0]], Without(a[1..], cb), Without(b, cb));
    }
  }

  /** Registering a callback and then unregistering it leaves no trace of it
      and keeps the other registrations. */
  lemma OnThenOff(s: seq<Callback>, cb: Callback)
    ensures Without(s + [cb], cb) == Without(s, cb)
  {
    WithoutAppend(s, [cb], cb);
    assert Without([cb], cb) == [];
  }

  /** The calls `emit` makes: each listener of the list once, in list order,
      with the emitted data. */
  function Deliveries(listeners: seq<Callback>, data: Payload): (r: seq<Invocation>)
    ensures |r| == |listeners|
  {
    seq(|listeners|, i requires 0 <= i < |listeners| => Invocation(listeners[i], data))
  }

  /** The listener registry: event name to the list of its callbacks. */
  class EventBus {
    var listeners: map<string, seq<Callback>>

    constructor ()
      ensures listeners == map[]
    {
      listeners := map[];
    }

    /** The callbacks registered for `event`, none when it has no list. */
    function Listeners(event: string): seq<Callback>
      reads this
    {
      if event in listeners then listeners[event] else []
    }

    /** `on`: appends the callback to the event's list, creating the list;
        duplicates are kept and other events are untouched. */
    method On(event: string, callback: Callback)
      modifies this
      ensures listeners == old(listeners)[event := old(Listeners(event)) + [callback]]
      ensures Listeners(event) == old(Listeners(event)) + [callback]
      ensures forall e :: e != event ==> Listeners(e) == old(Listeners(e))
    {
      if event !in listeners {
        listeners := listeners[event := []];
      }
      listeners := listeners[event := listeners[event] + [callback]];
    }

    /** `off`: drops every occurrence of the callback from the event's list;
        nothing happens when the event has no list. */
    method Off(event: string, callback: Callback)
      modifies this
      ensures event !in old(listeners) ==> listeners == old(listeners)
      ensures event in old(listeners) ==>
        listeners == old(listeners)[event := Without(old(listeners)[event], callback)]
      ensures callback !in Listeners(event)
      ensures forall e :: e != event ==> Listeners(e) == old(Listeners(e))
    {
      if event !in listeners {
        return;
      }
      listeners := listeners[event := Without(listeners[event], callback)];
    }

    /** `emit`: calls the event's listeners in registration order, once per
        occurrence; an unknown event calls nothing. */
    method Emit(event: string, data: Payload) returns (calls: seq<Invocation>)
      ensures calls == Deliveries(Listeners(event), data)
      ensures event !in listeners ==> calls == []
    {
      calls := [];
      if event !in listeners {
        return;
      }
      var ls := listeners[event];
      var i := 0;
      while i < |ls|
        invariant 0 <= i <= |ls|
        invariant |calls| == i
        invariant forall k :: 0 <= k < i ==> calls[k] == Invocation(ls[k], data)
      {
        calls := calls + [Invocation(ls[i], data)];
        i := i + 1;
      }
    }
  }

  // ---------------------------------------------------------------------------
  // Restaurant store
  // ---------------------------------------------------------------------------

  /** A menu category in view format. */
  datatype Category = Category(id: string, name: Text, items: seq<MenuItem>)

  /** A stored restaurant (the parts the store's operations touch). */
  datatype Restaurant = Restaurant(
    id: string,
    name: string,
    customization: Customization,
    categories: seq<Category>,
    offers: seq<Offer>)

  /** A partial customization object: the keys a caller supplies. */
  datatype CustomizationPatch = CustomizationPatch(
    welcomeText: Option<Text>,
    primaryColor: Option<string>,
    secondaryColor: Option<string>,
    accentColor: Option<string>,
    fontStyle: Option<string>)

  function Pick<T>(supplied: Option<T>, current: T): T
  {
    if supplied.Some? then supplied.value else current
  }

  /** `{ ...current, ...patch }`: supplied keys override, the others keep
      their values. */
  function Merge(current: Customization, patch: CustomizationPatch): (r: Customization)
    ensures patch.welcomeText.Some? ==> r.welcomeText == patch.welcomeText.value
    ensures patch.welcomeText.None? ==> r.welcomeText == current.welcomeText
    ensures patch.primaryColor.Some? ==> r.primaryColor == patch.primaryColor.value
    ensures patch.primaryColor.None? ==> r.primaryColor == current.primaryColor
    ensures patch.secondaryColor.Some? ==> r.secondaryColor == patch.secondaryColor.value
    ensures patch.secondaryColor.None? ==> r.secondaryColor == current.secondaryColor
    ensures patch.accentColor.Some? ==> r.accentColor == patch.accentColor.value
    ensures patch.accentColor.None? ==> r.accentColor == current.accentColor
    ensures patch.fontStyle.Some? ==> r.fontStyle == patch.fontStyle.value
    ensures patch.fontStyle.None? ==> r.fontStyle == current.fontStyle
  {
    Customization(
      Pick(patch.welcomeText, current.welcomeText),
      Pick(patch.primaryColor, current.primaryColor),
      Pick(patch.secondaryColor, current.secondaryColor),
      Pick(patch.accentColor, current.accentColor),
      Pick(patch.fontStyle, current.fontStyle))
  }

  /** The patch with the keys of `later` overriding those of `earlier`. */
  function Then(earlier: CustomizationPatch, later: CustomizationPatch): CustomizationPatch
  {
    CustomizationPatch(
      if later.welcomeText.Some? then later.welcomeText else earlier.welcomeText,
      if later.primaryColor.Some? then later.primaryColor else earlier.primaryColor,
      if later.secondaryColor.Some? then later.secondaryColor else earlier.secondaryColor,
      if later.accentColor.Some? then later.accentColor else earlier.accentColor,
      if later.fontStyle.Some? then later.fontStyle else earlier.fontStyle)
  }

  /** Two successive customization updates are one update with the combined
      keys; repeating an update changes nothing more. */
  lemma MergeTwice(c: Customization, p: CustomizationPatch, q: CustomizationPatch)
    ensures Merge(Merge(c, p), q) == Merge(c, Then(p, q))
    ensures Merge(Merge(c, p), p) == Merge(c, p)
  {
  }

  /** The index of the first element satisfying `p`, or -1 (`findIndex`). */
  function FirstIndex<T>(s: seq<T>, p: T -> bool): (i: int)
    ensures -1 <= i < |s|
    ensures i == -1 <==> forall k :: 0 <= k < |s| ==> !p(s[k])
    ensures 0 <= i ==> p(s[i]) && forall k :: 0 <= k < i ==> !p(s[k])
  {
    if s == [] then -1
    else if p(s[0]) then 0
    else var j := FirstIndex(s[1..], p); if j == -1 then -1 else j + 1
  }

  /** The offers without those carrying `offerId` (`filter(o => o.id !== offerId)`). */
  function RemoveOffers(offers: seq<Offer>, offerId: string): (r: seq<Offer>)
    ensures forall o :: o in r <==> o in offers && o.id != offerId
    ensures |r| <= |offers|
    ensures (forall k :: 0 <= k < |offers| ==> offers[k].id != offerId) ==> r == offers
  {
    if offers == [] then []
    else (if offers[0].id == offerId then [] else [offers[0]]) + RemoveOffers(offers[1..], offerId)
  }

  /** Deleting keeps the relative order of the remaining offers. */
  lemma {:induction false} RemoveOffersAppend(a: seq<Offer>, b: seq<Offer>, offerId: string)
    ensures RemoveOffers(a + b, offerId) == RemoveOffers(a, offerId) + RemoveOffers(b, offerId)
  {
    if a == [] {
      assert a + b == b;
    } else {
      TailOfAppend(a, b);
      RemoveOffersAppend(a[1..], b, offerId);
      AppendAssociates(if a[0].id == offerId then [] else [a[0]],
        RemoveOffers(a[1..], offerId), RemoveOffers(b, offerId));
    }
  }

  /** Replacing the first offer with the id of `offer`: only that position
      changes and the length stays. */
  lemma ReplaceFirstOffer(offers: seq<Offer>, offer: Offer)
    requires FirstIndex(offers, (o: Offer) => o.id == offer.id) >= 0
    ensures var i := FirstIndex(offers, (o: Offer) => o.id == offer.id);
      var r := offers[i := offer];
      && |r| == |offers|
      && offers[i].id == offer.id
      && (forall k :: 0 <= k < i ==> offers[k].id != offer.id)
      && (forall k :: 0 <= k < |r| && k != i ==> r[k] == offers[k])
  {
  }

  function HasItem(itemId: string): Category -> bool
  {
    (c: Category) => exists k :: 0 <= k < |c.items| && c.items[k].id == itemId
  }

  function IsItem(itemId: string): MenuItem -> bool
  {
    (m: MenuItem) => m.id == itemId
  }

  function IsOffer(offerId: string): Offer -> bool
  {
    (o: Offer) => o.id == offerId
  }

  /** The restaurant after `updateMenuItem`, or None when no category holds
      an item with that id. */
  function WithMenuItem(r: Restaurant, item: MenuItem): (res: Option<Restaurant>)
    ensures res.None? <==> forall c :: c in r.categories ==> forall m :: m in c.items ==> m.id != item.id
    ensures res.Some? ==> |res.value.categories| == |r.categories| && res.value.offers == r.offers
  {
    var ci := FirstIndex(r.categories, HasItem(item.id));
    if ci == -1 then
      assert forall c :: c in r.categories ==> !HasItem(item.id)(c);
      None
    else
      var cat := r.categories[ci];
      var ii := FirstIndex(cat.items, IsItem(item.id));
      if ii == -1 then None
      else Some(r.(categories := r.categories[ci := cat.(items := cat.items[ii := item])]))
  }

  /** The item lands in the first category that held its id, at the place of
      the first item with that id; everything else stays. */
  lemma WithMenuItemPlacement(r: Restaurant, item: MenuItem)
    requires WithMenuItem(r, item).Some?
    ensures var ci := FirstIndex(r.categories, HasItem(item.id));
      var ii := FirstIndex(r.categories[ci].items, IsItem(item.id));
      var r' := WithMenuItem(r, item).value;
      && 0 <= ci && 0 <= ii
      && (forall k :: 0 <= k < ci ==> forall m :: m in r.categories[k].items ==> m.id != item.id)
      && r'.categories[ci].items[ii] == item
      && r.categories[ci].items[ii].id == item.id
      && |r'.categories[ci].items| == |r.categories[ci].items|
      && (forall k :: 0 <= k < |r.categories| && k != ci ==> r'.categories[k] == r.categories[k])
      && (forall k :: 0 <= k < |r.categories[ci].items| && k != ii ==>
            r'.categories[ci].items[k] == r.categories[ci].items[k])
  {
    var ci := FirstIndex(r.categories, HasItem(item.id));
    forall k | 0 <= k < ci
      ensures forall m :: m in r.categories[k].items ==> m.id != item.id
    {
      assert !HasItem(item.id)(r.categories[k]);
    }
  }

  /** The restaurants, in memory, keyed like the browser storage entry. */
  class Store {
    var restaurants: map<string, Restaurant>
    const bus: EventBus

    constructor (bus: EventBus)
      ensures restaurants == map[] && this.bus == bus
    {
      restaurants := map[];
      this.bus := bus;
    }

    /** The listener calls `saveRestaurant` makes, in emission order. */
    function SaveCalls(r: Restaurant): seq<Invocation>
      reads bus
    {
      Deliveries(bus.Listeners("restaurant-updated"), RestaurantPayload(r))
      + Deliveries(bus.Listeners("menu-updated"), RestaurantIdPayload(r.id))
      + Deliveries(bus.Listeners("offers-updated"), RestaurantIdPayload(r.id))
    }

    /** `saveRestaurant`: stores under the restaurant's own id, replacing any
        earlier entry, then emits restaurant-, menu- and offers-updated. */
    method SaveRestaurant(r: Restaurant) returns (calls: seq<Invocation>)
      modifies this
      ensures restaurants == old(restaurants)[r.id := r]
      ensures calls == SaveCalls(r)
    {
      restaurants := restaurants[r.id := r];
      var c1 := bus.Emit("restaurant-updated", RestaurantPayload(r));
      var c2 := bus.Emit("menu-updated", RestaurantIdPayload(r.id));
      var c3 := bus.Emit("offers-updated", RestaurantIdPayload(r.id));
      calls := c1 + c2 + c3;
    }

    /** `addOffer`: appends the offer; no-op for an unknown restaurant. */
    method AddOffer(restaurantId: string, offer: Offer) returns (calls: seq<Invocation>)
      modifies this
      ensures restaurantId !in old(restaurants) ==> restaurants == old(restaurants) && calls == []
      ensures restaurantId in old(restaurants) ==>
        var r := old(restaurants)[restaurantId];
        var r' := r.(offers := r.offers + [offer]);
        restaurants == old(restaurants)[r'.id := r'] && calls == SaveCalls(r')
    {
      calls := [];
      if restaurantId !in restaurants {
        return;
      }
      var r := restaurants[restaurantId];
      r := r.(offers := r.offers + [offer]);
      calls := SaveRestaurant(r);
    }

    /** `updateOffer`: replaces the first offer with the same id; no-op when
        the restaurant or the id is missing. */
    method UpdateOffer(restaurantId: string, offer: Offer) returns (calls: seq<Invocation>)
      modifies this
      ensures restaurantId !in old(restaurants) ==> restaurants == old(restaurants) && calls == []
      ensures restaurantId in old(restaurants) ==>
        var r := old(restaurants)[restaurantId];
        var i := FirstIndex(r.offers, IsOffer(offer.id));
        if i == -1 then restaurants == old(restaurants) && calls == []
        else
          var r' := r.(offers := r.offers[i := offer]);
          restaurants == old(restaurants)[r'.id := r'] && calls == SaveCalls(r')
    {
      calls := [];
      if restaurantId !in restaurants {
        return;
      }
      var r := restaurants[restaurantId];
      var i := FirstIndex(r.offers, IsOffer(offer.id));
      if i == -1 {
        return;
      }
      r := r.(offers := r.offers[i := offer]);
      calls := SaveRestaurant(r);
    }

    /** `deleteOffer`: drops every offer with the id and saves, even when
        none matched; no-op for an unknown restaurant. */
    method DeleteOffer(restaurantId: string, offerId: string) returns (calls: seq<Invocation>)
      modifies this
      ensures restaurantId !in old(restaurants) ==> restaurants == old(restaurants) && calls == []
      ensures restaurantId in old(restaurants) ==>
        var r := old(restaurants)[restaurantId];
        var r' := r.(offers := RemoveOffers(r.offers, offerId));
        restaurants == old(restaurants)[r'.id := r'] && calls == SaveCalls(r')
    {
      calls := [];
      if restaurantId !in restaurants {
        return;
      }
      var r := restaurants[restaurantId];
      r := r.(offers := RemoveOffers(r.offers, offerId));
      calls := SaveRestaurant(r);
    }

    /** `updateMenuItem`: replaces the item in the first category holding its
        id; no-op otherwise. */
    method UpdateMenuItem(restaurantId: string, item: MenuItem) returns (calls: seq<Invocation>)
      modifies this
      ensures restaurantId !in old(restaurants) ==> restaurants == old(restaurants) && calls == []
      ensures restaurantId in old(restaurants) ==>
        var res := WithMenuItem(old(restaurants)[restaurantId], item);
        if res.None? then restaurants == old(restaurants) && calls == []
        else restaurants == old(restaurants)[res.value.id := res.value] && calls == SaveCalls(res.value)
    {
      calls := [];
      if restaurantId !in restaurants {
        return;
      }
      var r := restaurants[restaurantId];
      var ci := FirstIndex(r.categories, HasItem(item.id));
      if ci == -1 {
        return;
      }
      var cat := r.categories[ci];
      var ii := FirstIndex(cat.items, IsItem(item.id));
      if ii == -1 {
        return;
      }
      cat := cat.(items := cat.items[ii := item]);
      r := r.(categories := r.categories[ci := cat]);
      calls := SaveRestaurant(r);
    }

    /** `updateRestaurantCustomization`: merges the supplied keys into the
        stored customization; no-op for an unknown restaurant. */
    method UpdateCustomization(restaurantId: string, patch: CustomizationPatch)
      returns (calls: seq<Invocation>)
      modifies this
      ensures restaurantId !in old(restaurants) ==> restaurants == old(restaurants) && calls == []
      ensures restaurantId in old(restaurants) ==>
        var r := old(restaurants)[restaurantId];
        var r' := r.(customization := Merge(r.customization, patch));
        restaurants == old(restaurants)[r'.id := r'] && calls == SaveCalls(r')
    {
      calls := [];
      if restaurantId !in restaurants {
        return;
      }
      var r := restaurants[restaurantId];
      r := r.(customization := Merge(r.customization, patch));
      calls := SaveRestaurant(r);
    }
  }

  // ---------------------------------------------------------------------------
  // Offer validity
  // ---------------------------------------------------------------------------

  type Weekday = d: int | 0 <= d < 7
  type HourOfDay = h: int | 0 <= h < 24
  type MinuteOfHour = m: int | 0 <= m < 60

  /** The moment of evaluation: weekday (Sunday = 0) and local wall-clock time. */
  datatype Now = Now(day: Weekday, hour: HourOfDay, minute: MinuteOfHour)

  /** JavaScript's `<` on strings: lexicographic by character, a proper
      prefix being smaller. Characters are Unicode scalar values, so this
      agrees with JavaScript's UTF-16 order except between characters
      U+E000-U+FFFF and characters above U+FFFF; the times compared here are
      ASCII. */
  predicate StrLess(a: string, b: string)
  {
    if |a| == 0 then |b| > 0
    else if |b| == 0 then false
    else if a[0] != b[0] then a[0] < b[0]
    else StrLess(a[1..], b[1..])
  }

  /** A well-formed `HH:MM` text of a time of day. */
  predicate IsTimeText(s: string)
  {
    && |s| == 5
    && IsDigit(s[0]) && IsDigit(s[1]) && s[2] == ':' && IsDigit(s[3]) && IsDigit(s[4])
    && DigitValue(s[0]) * 10 + DigitValue(s[1]) < 24
    && DigitValue(s[3]) * 10 + DigitValue(s[4]) < 60
  }

  /** The minute of the day a well-formed `HH:MM` text names. */
  function MinutesOf(s: string): int
    requires IsTimeText(s)
  {
    (DigitValue(s[0]) * 10 + DigitValue(s[1])) * 60 + DigitValue(s[3]) * 10 + DigitValue(s[4])
  }

  function MinuteOfDay(now: Now): int
  {
    now.hour * 60 + now.minute
  }

  /** `now.toTimeString().slice(0, 5)`: the zero-padded `HH:MM` of `now`. */
  function ClockText(now: Now): (r: string)
    ensures IsTimeText(r) && MinutesOf(r) == MinuteOfDay(now)
  {
    [DigitChar(now.hour / 10), DigitChar(now.hour % 10), ':',
     DigitChar(now.minute / 10), DigitChar(now.minute % 10)]
  }

  /** `isValidOffer` evaluated at `now`. */
  function IsValidOffer(offer: Offer, now: Now): (valid: bool)
    ensures valid ==> offer.active && now.day in offer.validDays
  {
    if !offer.active then false
    else if now.day !in offer.validDays then false
    else
      var t := ClockText(now);
      !(StrLess(t, offer.validHours.start) || StrLess(offer.validHours.end, t))
  }

  /** One step of the string order: the first characters decide unless they
      are equal. */
  lemma StrLessStep(a: string, b: string)
    requires |a| > 0 && |b| > 0
    ensures StrLess(a, b) == if a[0] != b[0] then a[0] < b[0] else StrLess(a[1..], b[1..])
  {
  }

  /** No string is smaller than itself. */
  lemma {:induction false} StrLessIrreflexive(a: string)
    ensures !StrLess(a, a)
  {
    if |a| > 0 {
      StrLessIrreflexive(a[1..]);
    }
  }

  /** Of two distinct strings exactly one is smaller. */
  lemma {:induction false} StrLessTrichotomy(a: string, b: string)
    ensures a != b ==> (StrLess(a, b) || StrLess(b, a))
    ensures !(StrLess(a, b) && StrLess(b, a))
  {
    if |a| > 0 && |b| > 0 && a[0] == b[0] {
      StrLessTrichotomy(a[1..], b[1..]);
      if a != b {
        assert a == [a[0]] + a[1..] && b == [b[0]] + b[1..];
      }
    }
  }

  /** The string order is transitive. */
  lemma {:induction false} StrLessTransitive(a: string, b: string, c: string)
    requires StrLess(a, b) && StrLess(b, c)
    ensures StrLess(a, c)
  {
    if |a| > 0 && a[0] == b[0] && b[0] == c[0] {
      StrLessTransitive(a[1..], b[1..], c[1..]);
    }
  }

  /** On two well-formed `HH:MM` texts, string order is minute-of-day order. */
  lemma TimeTextOrder(a: string, b: string)
    requires IsTimeText(a) && IsTimeText(b)
    ensures StrLess(a, b) <==> MinutesOf(a) < MinutesOf(b)
  {
    StrLessStep(a, b);
    StrLessStep(a[1..], b[1..]);
    assert a[1..][1..] == a[2..] && b[1..][1..] == b[2..];
    StrLessStep(a[2..], b[2..]);
    assert a[2..][1..] == a[3..] && b[2..][1..] == b[3..];
    StrLessStep(a[3..], b[3..]);
    assert a[3..][1..] == a[4..] && b[3..][1..] == b[4..];
    StrLessStep(a[4..], b[4..]);
    assert a[4..][1..] == [] && b[4..][1..] == [];
    var tupleLess := a[0] < b[0] || (a[0] == b[0] && (a[1] < b[1] || (a[1] == b[1] &&
      (a[3] < b[3] || (a[3] == b[3] && a[4] < b[4])))));
    assert StrLess(a, b) == tupleLess;
  }

  /** For well-formed windows the check is a minute-of-day range test,
      inclusive at both ends. */
  lemma ValidOfferByMinutes(offer: Offer, now: Now)
    requires IsTimeText(offer.validHours.start) && IsTimeText(offer.validHours.end)
    ensures IsValidOffer(offer, now) <==>
      && offer.active
      && now.day in offer.validDays
      && MinutesOf(offer.validHours.start) <= MinuteOfDay(now) <= MinutesOf(offer.validHours.end)
  {
    var t := ClockText(now);
    TimeTextOrder(t, offer.validHours.start);
    TimeTextOrder(offer.validHours.end, t);
  }

  /** A window whose start equals its end admits exactly that one minute. */
  lemma SingleMinuteWindow(offer: Offer, now: Now)
    requires IsTimeText(offer.validHours.start)
    requires offer.validHours.start == offer.validHours.end
    requires offer.active && now.day in offer.validDays
    ensures IsValidOffer(offer, now) <==> MinuteOfDay(now) == MinutesOf(offer.validHours.start)
  {
    ValidOfferByMinutes(offer, now);
  }

  /** A window that starts after it ends (overnight) is never valid. */
  lemma InvertedWindowNeverValid(offer: Offer, now: Now)
    requires IsTimeText(offer.validHours.start) && IsTimeText(offer.validHours.end)
    requires MinutesOf(offer.validHours.start) > MinutesOf(offer.validHours.end)
    ensures !IsValidOffer(offer, now)
  {
    ValidOfferByMinutes(offer, now);
  }

  /** The first seed offer: weekdays 17:00-19:00. */
  const HappyHour := Offer(
    "offer-1",
    Text("Happy Hour Special", "Happy Hour Spezial"),
    Text("30% off all beverages", "30% Rabatt auf alle Getränke"),
    [1, 2, 3, 4, 5],
    Hours("17:00", "19:00"),
    true,
    30)

  /** The second seed offer: weekends 10:00-14:00. */
  const WeekendBrunch := Offer(
    "offer-2",
    Text("Weekend Brunch", "Wochenend-Brunch"),
    Text("Special brunch menu available", "Spezielle Brunch-Karte verfügbar"),
    [0, 6],
    Hours("10:00", "14:00"),
    true,
    15)

  lemma SeedTimes()
    ensures IsTimeText("17:00") && MinutesOf("17:00") == 1020
    ensures IsTimeText("19:00") && MinutesOf("19:00") == 1140
    ensures IsTimeText("10:00") && MinutesOf("10:00") == 600
    ensures IsTimeText("14:00") && MinutesOf("14:00") == 840
  {
  }

  /** The weekday offer holds inside its window and at its closing minute. */
  lemma HappyHourOpen()
    ensures IsValidOffer(HappyHour, Now(3, 18, 0))
    ensures IsValidOffer(HappyHour, Now(1, 19, 0))
  {
    SeedTimes();
    ValidOfferByMinutes(HappyHour, Now(3, 18, 0));
    ValidOfferByMinutes(HappyHour, Now(1, 19, 0));
  }

  /** The weekday offer does not hold a minute past closing or on a Saturday. */
  lemma HappyHourClosed()
    ensures !IsValidOffer(HappyHour, Now(3, 19, 1))
    ensures !IsValidOffer(HappyHour, Now(6, 18, 0))
  {
    assert 6 !in HappyHour.validDays;
    SeedTimes();
    ValidOfferByMinutes(HappyHour, Now(3, 19, 1));
    assert MinuteOfDay(Now(3, 19, 1)) == 1141;
  }

  /** The weekend offer at its opening minute and just after closing. */
  lemma WeekendBrunchVectors()
    ensures IsValidOffer(WeekendBrunch, Now(0, 10, 0))
    ensures !IsValidOffer(WeekendBrunch, Now(6, 14, 1))
    ensures !IsValidOffer(WeekendBrunch, Now(2, 12, 0))
  {
    assert 2 !in WeekendBrunch.validDays;
    SeedTimes();
    ValidOfferByMinutes(WeekendBrunch, Now(0, 10, 0));
    ValidOfferByMinutes(WeekendBrunch, Now(6, 14, 1));
    assert MinuteOfDay(Now(6, 14, 1)) == 841;
  }
}

=== FILE: menu_management.dfy ===
/** The admin menu page: the quick edit of an item's names, descriptions and
    price; the new-category and new-item forms with their checks; and the
    dietary controls of the item form. Backend calls are outputs of the
    handlers, and their outcomes are parameters. */
module MenuManagement {
  import opened Types

  // ---------------------------------------------------------------------------
  // Blank text
  // ---------------------------------------------------------------------------

  /** The characters `String.prototype.trim` removes: white space and line
      terminators of ECMAScript. */
  predicate IsJsWhitespace(c: char)
  {
    var n := c as int;
    || 0x09 <= n <= 0x0D || n == 0x20 || n == 0xA0 || n == 0x1680
    || 0x2000 <= n <= 0x200A || n == 0x2028 || n == 0x2029 || n == 0x202F
    || n == 0x205F || n == 0x3000 || n == 0xFEFF
  }

  /** The text has a character that is not white space. */
  predicate HasText(s: string)
  {
    exists i :: 0 <= i < |s| && !IsJsWhitespace(s[i])
  }

  function TrimStart(s: string): (r: string)
    ensures |r| <= |s|
    ensures r == [] || !IsJsWhitespace(r[0])
    ensures r == [] <==> !HasText(s)
  {
    if s != [] && IsJsWhitespace(s[0]) then
      assert HasText(s) <==> HasText(s[1..]) by {
        if HasText(s) {
          var i :| 0 <= i < |s| && !IsJsWhitespace(s[i]);
          assert s[1..][i - 1] == s[i];
        }
        if HasText(s[1..]) {
          var i :| 0 <= i < |s[1..]| && !IsJsWhitespace(s[1..][i]);
          assert s[i + 1] == s[1..][i];
        }
      }
      TrimStart(s[1..])
    else
      assert s != [] ==> !IsJsWhitespace(s[0]);
      s
  }

  function TrimEnd(s: string): (r: string)
    ensures |r| <= |s|
    ensures r == [] || !IsJsWhitespace(r[|r| - 1])
    ensures r == [] <==> !HasText(s)
  {
    if s != [] && IsJsWhitespace(s[|s| - 1]) then
      var p := s[..|s| - 1];
      assert HasText(s) <==> HasText(p) by {
        if HasText(s) {
          var i :| 0 <= i < |s| && !IsJsWhitespace(s[i]);
          assert p[i] == s[i];
        }
        if HasText(p) {
          var i :| 0 <= i < |p| && !IsJsWhitespace(p[i]);
          assert s[i] == p[i];
        }
      }
      TrimEnd(p)
    else
      assert s != [] ==> !IsJsWhitespace(s[|s| - 1]);
      s
  }

  /** `s.trim()`: white space off both ends; empty exactly for blank text. */
  function Trim(s: string): (r: string)
    ensures r == [] <==> !HasText(s)
    ensures r != [] ==> !IsJsWhitespace(r[0]) && !IsJsWhitespace(r[|r| - 1])
    ensures |r| <= |s|
  {
    var t := TrimStart(s);
    var r := TrimEnd(t);
    assert r != [] ==> !IsJsWhitespace(r[0]) by {
      if r != [] {
        TrimEndPrefix(t);
        assert r[0] == t[0];
      }
    }
    r
  }

  lemma {:induction false} TrimEndPrefix(s: string)
    ensures TrimEnd(s) == s[..|TrimEnd(s)|]
  {
    if s != [] && IsJsWhitespace(s[|s| - 1]) {
      var p := s[..|s| - 1];
      TrimEndPrefix(p);
      assert p[..|TrimEnd(p)|] == s[..|TrimEnd(p)|];
    }
  }

  // ---------------------------------------------------------------------------
  // Forms
  // ---------------------------------------------------------------------------

  /** The new-category form, which is also the create request. */
  datatype CategoryForm = CategoryForm(name_en: string, name_de: string, sort_order: int)

  const EmptyCategoryForm := CategoryForm("", "", 0)

  /** The spice levels the select offers. */
  type SpiceLevel = x: int | 0 <= x <= 3

  /** The new-item form, which is also the create request's item. */
  datatype ItemForm = ItemForm(
    name_en: string,
    name_de: string,
    description_en: string,
    description_de: string,
    price: real,
    image_url: string,
    is_vegetarian: bool,
    is_vegan: bool,
    spice_level: int,
    meat_type: Option<string>)

  const EmptyItemForm := ItemForm("", "", "", "", 0.0, "", false, false, 0, None)

  /** The quick-edit form: the five fields an edit may change. */
  datatype EditForm = EditForm(
    name_en: string,
    name_de: string,
    description_en: string,
    description_de: string,
    price: real)

  /** What `updateMenuItem` receives from a quick edit. */
  datatype ItemUpdate = ItemUpdate(itemId: string, fields: EditForm)

  /** What `createMenuItem` receives. */
  datatype ItemRequest = ItemRequest(categoryId: string, item: ItemForm)

  const CategoryNamesMissing := "Please fill in both English and German names"
  const CategoryNotCreated := "Failed to create category. Please try again."
  const ItemFieldsMissing := "Please fill in required fields (names and price)"
  const ItemNotCreated := "Failed to create menu item. Please try again."

  /** The category check: both names non-blank after trimming. */
  function CategoryFormComplete(f: CategoryForm): (ok: bool)
    ensures ok <==> HasText(f.name_en) && HasText(f.name_de)
  {
    Trim(f.name_en) != "" && Trim(f.name_de) != ""
  }

  /** The item check: both names non-blank after trimming and a positive
      price. */
  function ItemFormComplete(f: ItemForm): (ok: bool)
    ensures ok <==> HasText(f.name_en) && HasText(f.name_de) && f.price > 0.0
  {
    Trim(f.name_en) != "" && Trim(f.name_de) != "" && f.price > 0.0
  }

  /** `restaurant?.menu_categories?.length || 0`: a new category goes after
      the existing ones. */
  function DefaultSortOrder(restaurant: Option<RestaurantRecord>): (n: int)
    ensures n >= 0
    ensures restaurant.None? ==> n == 0
    ensures restaurant.Some? && restaurant.value.menu_categories.None? ==> n == 0
    ensures restaurant.Some? && restaurant.value.menu_categories.Some? ==>
      n == |restaurant.value.menu_categories.value|
  {
    if restaurant.Some? && restaurant.value.menu_categories.Some? then
      |restaurant.value.menu_categories.value|
    else 0
  }

  /** `handleEditItem`'s copy of a stored item. */
  function EditFormOf(item: MenuItemRow): (f: EditForm)
  {
    EditForm(item.name_en, item.name_de, item.description_en, item.description_de, item.price)
  }

  /** The item's text and price with the edit applied: the five fields
      replaced, everything else kept. */
  function ApplyEdit(item: MenuItemRow, f: EditForm): (r: MenuItemRow)
  {
    item.(name_en := f.name_en, name_de := f.name_de,
          description_en := f.description_en, description_de := f.description_de,
          price := f.price)
  }

  /** The edit copy and the edit write-back are inverse: saving an untouched
      edit leaves the item as it was, the edit copies back what was written,
      and the write-back touches nothing but the five fields. */
  lemma EditRoundTrip(item: MenuItemRow, f: EditForm)
    ensures ApplyEdit(item, EditFormOf(item)) == item
    ensures EditFormOf(ApplyEdit(item, f)) == f
    ensures var r := ApplyEdit(item, f);
      && r.id == item.id && r.image_url == item.image_url
      && r.is_vegetarian == item.is_vegetarian && r.is_vegan == item.is_vegan
      && r.spice_level == item.spice_level && r.meat_type == item.meat_type
      && r.is_sold_out == item.is_sold_out
  {
  }

  /** The spicy badge of the item list: shown only for a level above 0, as
      "Spicy n/3" where the digits read back as the level. */
  function SpicyBadge(level: int): (badge: Option<string>)
    ensures badge.Some? <==> level > 0
    ensures badge.Some? ==>
      var t := badge.value;
      && |t| >= 9 && t[..6] == "Spicy " && t[|t| - 2..] == "/3"
      && (forall i :: 6 <= i < |t| - 2 ==> IsDigit(t[i]))
      && DigitsValue(t[6..|t| - 2]) == level
  {
    if level > 0 then
      var digits := NatText(level);
      var t := "Spicy " + digits + "/3";
      assert t[6..|t| - 2] == digits;
      NatTextValue(level);
      Some(t)
    else None
  }

  // ---------------------------------------------------------------------------
  // Page state
  // ---------------------------------------------------------------------------

  /** The menu page's form state. */
  class MenuManager {
    var editingItem: Option<MenuItemRow>
    var editForm: Option<EditForm>
    var showCategoryForm: bool
    var showItemForm: bool
    var selectedCategoryId: string
    var categoryForm: CategoryForm
    var itemForm: ItemForm

    /** A vegan item is vegetarian, the spice level is one the select offers,
        and an item being edited has its edit form. */
    predicate Valid()
      reads this
    {
      && (itemForm.is_vegan ==> itemForm.is_vegetarian)
      && 0 <= itemForm.spice_level <= 3
      && (editingItem.Some? ==> editForm.Some?)
    }

    constructor ()
      ensures Valid()
      ensures editingItem == None && editForm == None
      ensures !showCategoryForm && !showItemForm && selectedCategoryId == ""
      ensures categoryForm == EmptyCategoryForm && itemForm == EmptyItemForm
    {
      editingItem := None;
      editForm := None;
      showCategoryForm := false;
      showItemForm := false;
      selectedCategoryId := "";
      categoryForm := EmptyCategoryForm;
      itemForm := EmptyItemForm;
    }

    /** `handleEditItem`: opens the quick edit on a copy of the item's five
        editable fields. */
    method HandleEditItem(item: MenuItemRow)
      requires Valid()
      modifies this
      ensures Valid()
      ensures editingItem == Some(item) && editForm == Some(EditFormOf(item))
      ensures showCategoryForm == old(showCategoryForm) && showItemForm == old(showItemForm)
      ensures categoryForm == old(categoryForm) && itemForm == old(itemForm)
      ensures selectedCategoryId == old(selectedCategoryId)
    {
      editingItem := Some(item);
      editForm := Some(EditFormOf(item));
    }

    /** Typing into the quick edit. */
    method SetEditForm(f: EditForm)
      requires Valid()
      modifies this
      ensures Valid()
      ensures editForm == Some(f) && editingItem == old(editingItem)
      ensures showCategoryForm == old(showCategoryForm) && showItemForm == old(showItemForm)
      ensures categoryForm == old(categoryForm) && itemForm == old(itemForm)
      ensures selectedCategoryId == old(selectedCategoryId)
    {
      editForm := Some(f);
    }

    /** `handleSaveEdit`: nothing without an item being edited; otherwise
        sends the five edited fields for that item and clears the edit. */
    method HandleSaveEdit() returns (update: Option<ItemUpdate>)
      requires Valid()
      modifies this
      ensures Valid()
      ensures old(editingItem).None? ==>
        update.None? && editingItem == old(editingItem) && editForm == old(editForm)
      ensures old(editingItem).Some? ==>
        && update == Some(ItemUpdate(old(editingItem).value.id, old(editForm).value))
        && editingItem.None? && editForm.None?
      ensures showCategoryForm == old(showCategoryForm) && showItemForm == old(showItemForm)
      ensures categoryForm == old(categoryForm) && itemForm == old(itemForm)
      ensures selectedCategoryId == old(selectedCategoryId)
    {
      if editingItem.None? {
        return None;
      }
      update := Some(ItemUpdate(editingItem.value.id, editForm.value));
      editingItem := None;
      editForm := None;
    }

    /** The quick edit's Cancel button: closes the edit but keeps the form's
        last contents. */
    method CancelEdit()
      requires Valid()
      modifies this
      ensures Valid()
      ensures editingItem.None? && editForm == old(editForm)
      ensures showCategoryForm == old(showCategoryForm) && showItemForm == old(showItemForm)
      ensures categoryForm == old(categoryForm) && itemForm == old(itemForm)
      ensures selectedCategoryId == old(selectedCategoryId)
    {
      editingItem := None;
    }

    /** `handleAddCategory`: opens an empty category form placed after the
        existing categories. */
    method HandleAddCategory(restaurant: Option<RestaurantRecord>)
      requires Valid()
      modifies this
      ensures Valid()
      ensures showCategoryForm
      ensures categoryForm == CategoryForm("", "", DefaultSortOrder(restaurant))
      ensures editingItem == old(editingItem) && editForm == old(editForm)
      ensures showItemForm == old(showItemForm) && itemForm == old(itemForm)
      ensures selectedCategoryId == old(selectedCategoryId)
    {
      showCategoryForm := true;
      categoryForm := CategoryForm("", "", DefaultSortOrder(restaurant));
    }

    /** Typing into the category form's two name fields; the sort order
        has no input and keeps the value the form was opened with. */
    method SetCategoryNames(name_en: string, name_de: string)
      requires Valid()
      modifies this
      ensures Valid()
      ensures categoryForm == old(categoryForm).(name_en := name_en, name_de := name_de)
      ensures showCategoryForm == old(showCategoryForm)
      ensures editingItem == old(editingItem) && editForm == old(editForm)
      ensures showItemForm == old(showItemForm) && itemForm == old(itemForm)
      ensures selectedCategoryId == old(selectedCategoryId)
    {
      categoryForm := categoryForm.(name_en := name_en, name_de := name_de);
    }

    /** `handleSaveCategory`: an incomplete form makes no request and
        alerts. A complete one is sent; `created` is the backend's answer. On
        success the form closes and resets, on failure it stays as it was. */
    method HandleSaveCategory(created: bool) returns (request: Option<CategoryForm>, alert: Option<string>)
      requires Valid()
      modifies this
      ensures Valid()
      ensures request.Some? <==> CategoryFormComplete(old(categoryForm))
      ensures request.Some? ==> request.value == old(categoryForm)
      ensures request.None? ==> alert == Some(CategoryNamesMissing)
      ensures request.Some? && created ==>
        alert.None? && !showCategoryForm && categoryForm == EmptyCategoryForm
      ensures request.Some? && !created ==> alert == Some(CategoryNotCreated)
      ensures request.None? || !created ==>
        showCategoryForm == old(showCategoryForm) && categoryForm == old(categoryForm)
      ensures editingItem == old(editingItem) && editForm == old(editForm)
      ensures showItemForm == old(showItemForm) && itemForm == old(itemForm)
      ensures selectedCategoryId == old(selectedCategoryId)
    {
      if Trim(categoryForm.name_en) == "" || Trim(categoryForm.name_de) == "" {
        return None, Some(CategoryNamesMissing);
      }
      request := Some(categoryForm);
      if created {
        showCategoryForm := false;
        categoryForm := EmptyCategoryForm;
        alert := None;
      } else {
        alert := Some(CategoryNotCreated);
      }
    }

    /** `handleAddMenuItem`: opens an empty item form for the category. */
    method HandleAddMenuItem(categoryId: string)
      requires Valid()
      modifies this
      ensures Valid()
      ensures selectedCategoryId == categoryId && showItemForm && itemForm == EmptyItemForm
      ensures editingItem == old(editingItem) && editForm == old(editForm)
      ensures showCategoryForm == old(showCategoryForm) && categoryForm == old(categoryForm)
    {
      selectedCategoryId := categoryId;
      showItemForm := true;
      itemForm := EmptyItemForm;
    }

    /** Typing into the item form's text and price fields; the dietary
        controls have their own handlers. */
    method SetItemDetails(name_en: string, name_de: string, description_en: string,
                          description_de: string, price: real, image_url: string)
      requires Valid()
      modifies this
      ensures Valid()
      ensures itemForm == old(itemForm).(name_en := name_en, name_de := name_de,
        description_en := description_en, description_de := description_de,
        price := price, image_url := image_url)
      ensures showItemForm == old(showItemForm) && selectedCategoryId == old(selectedCategoryId)
      ensures editingItem == old(editingItem) && editForm == old(editForm)
      ensures showCategoryForm == old(showCategoryForm) && categoryForm == old(categoryForm)
    {
      itemForm := itemForm.(name_en := name_en, name_de := name_de,
        description_en := description_en, description_de := description_de,
        price := price, image_url := image_url);
    }

    /** `handleSaveMenuItem`: an incomplete form makes no request and
        alerts. A complete one is sent for the selected category; `created`
        is the backend's answer. On success the form closes, the selection
        clears and the form resets; on failure everything stays. */
    method HandleSaveMenuItem(created: bool) returns (request: Option<ItemRequest>, alert: Option<string>)
      requires Valid()
      modifies this
      ensures Valid()
      ensures request.Some? <==> ItemFormComplete(old(itemForm))
      ensures request.Some? ==> request.value == ItemRequest(old(selectedCategoryId), old(itemForm))
      ensures request.None? ==> alert == Some(ItemFieldsMissing)
      ensures request.Some? && created ==>
        alert.None? && !showItemForm && selectedCategoryId == "" && itemForm == EmptyItemForm
      ensures request.Some? && !created ==> alert == Some(ItemNotCreated)
      ensures request.None? || !created ==>
        && showItemForm == old(showItemForm) && itemForm == old(itemForm)
        && selectedCategoryId == old(selectedCategoryId)
      ensures editingItem == old(editingItem) && editForm == old(editForm)
      ensures showCategoryForm == old(showCategoryForm) && categoryForm == old(categoryForm)
    {
      if Trim(itemForm.name_en) == "" || Trim(itemForm.name_de) == "" || itemForm.price <= 0.0 {
        return None, Some(ItemFieldsMissing);
      }
      request := Some(ItemRequest(selectedCategoryId, itemForm));
      if created {
        showItemForm := false;
        selectedCategoryId := "";
        itemForm := EmptyItemForm;
        alert := None;
      } else {
        alert := Some(ItemNotCreated);
      }
    }

    /** The Vegetarian checkbox: unchecking it also clears vegan. */
    method SetVegetarian(checked: bool)
      requires Valid()
      modifies this
      ensures Valid()
      ensures itemForm.is_vegetarian == checked
      ensures itemForm.is_vegan == (checked && old(itemForm).is_vegan)
      ensures itemForm == old(itemForm).(is_vegetarian := itemForm.is_vegetarian, is_vegan := itemForm.is_vegan)
      ensures showItemForm == old(showItemForm) && selectedCategoryId == old(selectedCategoryId)
      ensures editingItem == old(editingItem) && editForm == old(editForm)
      ensures showCategoryForm == old(showCategoryForm) && categoryForm == old(categoryForm)
    {
      itemForm := itemForm.(is_vegetarian := checked,
                            is_vegan := if checked then itemForm.is_vegan else false);
    }

    /** The Vegan checkbox: checking it also sets vegetarian. */
    method SetVegan(checked: bool)
      requires Valid()
      modifies this
      ensures Valid()
      ensures itemForm.is_vegan == checked
      ensures itemForm.is_vegetarian == (checked || old(itemForm).is_vegetarian)
      ensures itemForm == old(itemForm).(is_vegetarian := itemForm.is_vegetarian, is_vegan := itemForm.is_vegan)
      ensures showItemForm == old(showItemForm) && selectedCategoryId == old(selectedCategoryId)
      ensures editingItem == old(editingItem) && editForm == old(editForm)
      ensures showCategoryForm == old(showCategoryForm) && categoryForm == old(categoryForm)
    {
      itemForm := itemForm.(is_vegan := checked,
                            is_vegetarian := if checked then true else itemForm.is_vegetarian);
    }

    /** The spice select: one of its four options. */
    method SetSpiceLevel(level: SpiceLevel)
      requires Valid()
      modifies this
      ensures Valid()
      ensures itemForm == old(itemForm).(spice_level := level)
      ensures showItemForm == old(showItemForm) && selectedCategoryId == old(selectedCategoryId)
      ensures editingItem == old(editingItem) && editForm == old(editForm)
      ensures showCategoryForm == old(showCategoryForm) && categoryForm == old(categoryForm)
    {
      itemForm := itemForm.(spice_level := level);
    }

    /** The meat select: its empty "No Meat" option stores no meat type. */
    method SetMeatType(choice: string)
      requires Valid()
      modifies this
      ensures Valid()
      ensures itemForm == old(itemForm).(meat_type := if choice == "" then None else Some(choice))
      ensures itemForm.meat_type.None? <==> choice == ""
      ensures showItemForm == old(showItemForm) && selectedCategoryId == old(selectedCategoryId)
      ensures editingItem == old(editingItem) && editForm == old(editForm)
      ensures showCategoryForm == old(showCategoryForm) && categoryForm == old(categoryForm)
    {
      itemForm := itemForm.(meat_type := if choice == "" then None else Some(choice));
    }
  }

  /** Opening the quick edit on an item and saving it untouched sends an
      update that leaves the item as it was. */
  method EditThenSave(page: MenuManager, item: MenuItemRow) returns (update: Option<ItemUpdate>)
    requires page.Valid()
    modifies page
    ensures page.Valid() && page.editingItem.None?
    ensures update.Some? && update.value.itemId == item.id
    ensures ApplyEdit(item, update.value.fields) == item
  {
    page.HandleEditItem(item);
    update := page.HandleSaveEdit();
    EditRoundTrip(item, update.value.fields);
  }

  /** Any sequence of clicks on the two dietary checkboxes keeps a vegan
      item vegetarian. */
  method DietaryClicks(page: MenuManager, clicks: seq<(bool, bool)>)
    requires page.Valid()
    modifies page
    ensures page.Valid()
    ensures page.itemForm.is_vegan ==> page.itemForm.is_vegetarian
  {
    var k := 0;
    while k < |clicks|
      invariant 0 <= k <= |clicks|
      invariant page.Valid()
    {
      if clicks[k].0 {
        page.SetVegan(clicks[k].1);
      } else {
        page.SetVegetarian(clicks[k].1);
      }
      k := k + 1;
    }
  }
}

=== FILE: offers_carousel.dfy ===
/** The rotating offer carousel: which offers it shows, its slide index with
    wrap-around navigation and auto-advance, the hover pause and the
    placeholder image per slide. Time is not modelled: the interval timer is
    an abstract tick event that can only occur while the timer is armed. */
module OffersCarousel {
  import opened Types

  /** `offers.filter(offer => offer.active)`. */
  function ActiveOffers(offers: seq<Offer>): (r: seq<Offer>)
    ensures forall o :: o in r <==> o in offers && o.active
    ensures |r| <= |offers|
  {
    if offers == [] then []
    else (if offers[0].active then [offers[0]] else []) + ActiveOffers(offers[1..])
  }

  /** The filter distributes over concatenation: it keeps the input order. */
  lemma {:induction false} ActiveOffersAppend(a: seq<Offer>, b: seq<Offer>)
    ensures ActiveOffers(a + b) == ActiveOffers(a) + ActiveOffers(b)
  {
    if a == [] {
      assert a + b == b;
    } else {
      assert (a + b)[1..] == a[1..] + b;
      ActiveOffersAppend(a[1..], b);
    }
  }

  /** A list of active offers passes the filter unchanged. */
  lemma {:induction false} ActiveOffersOfActive(offers: seq<Offer>)
    requires forall k :: 0 <= k < |offers| ==> offers[k].active
    ensures ActiveOffers(offers) == offers
  {
    if offers != [] {
      ActiveOffersOfActive(offers[1..]);
    }
  }

  /** Filtering twice is filtering once. */
  lemma ActiveOffersIdempotent(offers: seq<Offer>)
    ensures ActiveOffers(ActiveOffers(offers)) == ActiveOffers(offers)
  {
    var r := ActiveOffers(offers);
    assert forall k :: 0 <= k < |r| ==> r[k] in r;
    ActiveOffersOfActive(r);
  }

  /** The component returns nothing when no offer is active. */
  function RendersCarousel(offers: seq<Offer>): (shown: bool)
    ensures shown <==> exists k :: 0 <= k < |offers| && offers[k].active
  {
    var r := ActiveOffers(offers);
    if |r| == 0 then
      assert forall k :: 0 <= k < |offers| ==> offers[k] !in r;
      false
    else
      assert r[0] in offers;
      true
  }

  /** The slide after `i` among `n` (`i === n - 1 ? 0 : i + 1`). */
  function NextIndex(i: int, n: int): (j: int)
    ensures 0 <= i < n ==> 0 <= j < n
  {
    if i == n - 1 then 0 else i + 1
  }

  /** The slide before `i` among `n` (`i === 0 ? n - 1 : i - 1`). */
  function PrevIndex(i: int, n: int): (j: int)
    ensures 0 <= i < n ==> 0 <= j < n
  {
    if i == 0 then n - 1 else i - 1
  }

  /** Inside the range, next is successor modulo `n` and previous undoes it. */
  lemma NextPrevInverse(i: int, n: int)
    requires 0 <= i < n
    ensures NextIndex(i, n) == (i + 1) % n
    ensures PrevIndex(NextIndex(i, n), n) == i
    ensures NextIndex(PrevIndex(i, n), n) == i
  {
  }

  /** The index after `k` auto-advance ticks. */
  function AfterTicks(i: int, n: int, k: nat): int
  {
    if k == 0 then i else NextIndex(AfterTicks(i, n, k - 1), n)
  }

  /** Up to a full round, `k` ticks from `i` land on `i + k`, wrapped once
      past the last slide: `(i + k) mod n` without the division. */
  lemma {:induction false} AfterTicksWrap(i: int, n: int, k: nat)
    requires 0 <= i < n && k <= n
    ensures AfterTicks(i, n, k) == if i + k < n then i + k else i + k - n
  {
    if k > 0 {
      AfterTicksWrap(i, n, k - 1);
    }
  }

  /** `n` ticks bring the carousel back to the slide it started on. */
  lemma FullCycle(i: int, n: int)
    requires 0 <= i < n
    ensures AfterTicks(i, n, n) == i
  {
    AfterTicksWrap(i, n, n);
  }

  /** The five placeholder pictures, cycled by slide position. */
  const OfferImages: seq<string> := [
    "https://images.pexels.com/photos/1640777/pexels-photo-1640777.jpeg",
    "https://images.pexels.com/photos/315755/pexels-photo-315755.jpeg",
    "https://images.pexels.com/photos/1279330/pexels-photo-1279330.jpeg",
    "https://images.pexels.com/photos/1639557/pexels-photo-1639557.jpeg",
    "https://images.pexels.com/photos/361184/asparagus-steak-veal-steak-veal-361184.jpeg"
  ]

  /** `getOfferImage(i)`: the picture for slide `i`, one of the five, the
      same for slides five apart. */
  function OfferImage(i: nat): (url: string)
    ensures url in OfferImages
    ensures url == OfferImages[i % 5]
    ensures i >= 5 ==> url == OfferImage(i - 5)
  {
    OfferImages[i % |OfferImages|]
  }

  /** The carousel component's state for a given `offers` prop. */
  class Carousel {
    const offers: seq<Offer>
    const autoScroll: bool
    var currentIndex: int
    var isHovered: bool

    /** The number of slides: the active offers. */
    function Count(): nat
    {
      |ActiveOffers(offers)|
    }

    /** The index names a slide. */
    predicate InRange()
      reads this
    {
      0 <= currentIndex < Count()
    }

    /** The interval is set exactly when auto-scrolling is on, there is more
        than one slide and the pointer is not over the slides. */
    predicate TimerArmed()
      reads this
    {
      autoScroll && Count() > 1 && !isHovered
    }

    /** The initial state: first slide, not hovered (`autoScroll` defaults
        to true at the call sites). */
    constructor (offers: seq<Offer>, autoScroll: bool)
      ensures this.offers == offers && this.autoScroll == autoScroll
      ensures currentIndex == 0 && !isHovered
      ensures Count() > 0 ==> InRange()
    {
      this.offers := offers;
      this.autoScroll := autoScroll;
      currentIndex := 0;
      isHovered := false;
    }

    /** The interval callback: advances with wrap-around. It only fires
        while the timer is armed. */
    method Tick()
      requires TimerArmed()
      modifies this
      ensures currentIndex == NextIndex(old(currentIndex), Count())
      ensures isHovered == old(isHovered)
      ensures old(InRange()) ==> InRange()
    {
      currentIndex := if currentIndex == Count() - 1 then 0 else currentIndex + 1;
    }

    /** `goToNext`: forward with wrap-around. */
    method GoToNext()
      modifies this
      ensures currentIndex == NextIndex(old(currentIndex), Count())
      ensures isHovered == old(isHovered)
      ensures old(InRange()) ==> InRange()
    {
      currentIndex := if currentIndex == Count() - 1 then 0 else currentIndex + 1;
    }

    /** `goToPrevious`: backward with wrap-around. */
    method GoToPrevious()
      modifies this
      ensures currentIndex == PrevIndex(old(currentIndex), Count())
      ensures isHovered == old(isHovered)
      ensures old(InRange()) ==> InRange()
    {
      currentIndex := if currentIndex == 0 then Count() - 1 else currentIndex - 1;
    }

    /** `goToSlide`: sets the index as given, without a range check; the
        navigation dots pass positions of the slide list, which are in range. */
    method GoToSlide(index: int)
      modifies this
      ensures currentIndex == index && isHovered == old(isHovered)
      ensures InRange() <==> 0 <= index < Count()
    {
      currentIndex := index;
    }

    /** Pointer enters the slides: pauses the timer. */
    method MouseEnter()
      modifies this
      ensures isHovered && currentIndex == old(currentIndex)
      ensures !TimerArmed()
    {
      isHovered := true;
    }

    /** Pointer leaves the slides: the timer is re-armed when the other
        conditions hold. */
    method MouseLeave()
      modifies this
      ensures !isHovered && currentIndex == old(currentIndex)
      ensures TimerArmed() <==> autoScroll && Count() > 1
    {
      isHovered := false;
    }
  }

  /** Next then previous returns to the same slide on a live carousel. */
  method NextThenPrevious(c: Carousel)
    requires c.InRange()
    modifies c
    ensures c.currentIndex == old(c.currentIndex) && c.InRange()
  {
    c.GoToNext();
    c.GoToPrevious();
    NextPrevInverse(old(c.currentIndex), c.Count());
  }
}

=== FILE: offers_management.dfy ===
/** The admin offers page: the offer form, its day toggles, editing an
    existing offer and saving (create or update), and the day labels. */
module OffersManagement {
  import opened Types

  /** The form's contents, which is also the payload of a save. */
  datatype OfferForm = OfferForm(
    title: Text,
    description: Text,
    validDays: seq<int>,
    validHours: Hours,
    active: bool,
    discount: int)

  /** The form as first shown and after every reset. */
  const EmptyForm := OfferForm(Text("", ""), Text("", ""), [], Hours("09:00", "22:00"), true, 10)

  /** The call `handleSave` makes. */
  datatype SaveCall =
    | UpdateCall(offerId: string, data: OfferForm)
    | CreateCall(data: OfferForm)

  /** The days without any occurrence of `day` (`filter(d => d !== day)`). */
  function RemoveDay(days: seq<int>, day: int): (r: seq<int>)
    ensures forall x :: x in r <==> x in days && x != day
    ensures |r| <= |days|
  {
    if days == [] then []
    else (if days[0] == day then [] else [days[0]]) + RemoveDay(days[1..], day)
  }

  /** `toggleDay`'s list: drop the day when present, otherwise append it. */
  function ToggledDays(days: seq<int>, day: int): (r: seq<int>)
    ensures day in r <==> day !in days
    ensures forall x :: x != day ==> (x in r <==> x in days)
    ensures day in days ==> |r| < |days|
    ensures day !in days ==> |r| == |days| + 1 && r[..|days|] == days && r[|days|] == day
  {
    if day in days then
      assert days[0] == day || days[0] != day;
      RemoveDayShrinks(days, day);
      RemoveDay(days, day)
    else days + [day]
  }

  lemma {:induction false} RemoveDayShrinks(days: seq<int>, day: int)
    requires day in days
    ensures |RemoveDay(days, day)| < |days|
  {
    if days[0] != day {
      RemoveDayShrinks(days[1..], day);
    }
  }

  /** Toggling a day twice gives back the same set of days (possibly in a
      different order: a re-added day goes to the end). */
  lemma ToggleTwice(days: seq<int>, day: int)
    ensures (set x | x in ToggledDays(ToggledDays(days, day), day)) == (set x | x in days)
  {
  }

  /** The order can change: removing and re-adding moves a day to the end. */
  lemma ToggleTwiceReorders()
    ensures ToggledDays(ToggledDays([1, 2], 1), 1) == [2, 1]
  {
    assert RemoveDay([1, 2], 1) == [2] by {
      assert [1, 2][1..] == [2];
      assert RemoveDay([2], 1) == [2] by { assert [2][1..] == []; }
    }
    assert 1 in [1, 2];
  }

  predicate NoDuplicates(s: seq<int>)
  {
    forall i, j :: 0 <= i < j < |s| ==> s[i] != s[j]
  }

  lemma {:induction false} RemoveDayNoDuplicates(days: seq<int>, day: int)
    requires NoDuplicates(days)
    ensures NoDuplicates(RemoveDay(days, day))
  {
    if days != [] {
      RemoveDayNoDuplicates(days[1..], day);
      assert days[0] !in days[1..];
    }
  }

  /** Toggling keeps a duplicate-free day list duplicate-free. */
  lemma ToggleKeepsNoDuplicates(days: seq<int>, day: int)
    requires NoDuplicates(days)
    ensures NoDuplicates(ToggledDays(days, day))
  {
    if day in days {
      RemoveDayNoDuplicates(days, day);
    }
  }

  const DayNames: seq<string> :=
    ["Sunday", "Monday", "Tuesday", "Wednesday", "Thursday", "Friday", "Saturday"]

  /** `dayNames[day].slice(0, 3)`; None where `dayNames[day]` is undefined
      and the page would throw. */
  function DayAbbreviation(day: int): (r: Option<string>)
    ensures r.Some? <==> 0 <= day < 7
    ensures r.Some? ==> |r.value| == 3 && r.value <= DayNames[day]
  {
    if 0 <= day < |DayNames| then Some(DayNames[day][..3]) else None
  }

  /** The seven labels, Sunday first. */
  lemma DayAbbreviations()
    ensures DayAbbreviation(0) == Some("Sun") && DayAbbreviation(1) == Some("Mon")
    ensures DayAbbreviation(2) == Some("Tue") && DayAbbreviation(3) == Some("Wed")
    ensures DayAbbreviation(4) == Some("Thu") && DayAbbreviation(5) == Some("Fri")
    ensures DayAbbreviation(6) == Some("Sat") && DayAbbreviation(7) == None
  {
    assert "Sunday"[..3] == "Sun" && "Monday"[..3] == "Mon" && "Tuesday"[..3] == "Tue";
    assert "Wednesday"[..3] == "Wed" && "Thursday"[..3] == "Thu" && "Friday"[..3] == "Fri";
    assert "Saturday"[..3] == "Sat";
  }

  /** `handleEdit`'s copy of a stored offer into the form. */
  function FormOf(row: OfferRow): (f: OfferForm)
  {
    OfferForm(
      Text(row.title_en, row.title_de),
      Text(row.description_en, row.description_de),
      row.valid_days,
      Hours(row.valid_hours_start, row.valid_hours_end),
      row.is_active,
      row.discount_percentage)
  }

  /** The columns the data service writes for a saved form. */
  function RowOf(offerId: string, f: OfferForm): OfferRow
  {
    OfferRow(offerId, f.title.en, f.title.de, f.description.en, f.description.de,
             f.validDays, f.validHours.start, f.validHours.end, f.active, f.discount)
  }

  /** The edit mapping and the write mapping are inverse: an offer opened for
      editing and saved unchanged is written back as it was, and a form
      survives a write and a reload. */
  lemma EditSaveRoundTrip(row: OfferRow, offerId: string, f: OfferForm)
    ensures RowOf(row.id, FormOf(row)) == row
    ensures FormOf(RowOf(offerId, f)) == f
  {
  }

  /** The offers page's form state. */
  class OffersEditor {
    var formData: OfferForm
    var editingOffer: Option<OfferRow>
    var showForm: bool

    constructor ()
      ensures formData == EmptyForm && editingOffer == None && !showForm
    {
      formData := EmptyForm;
      editingOffer := None;
      showForm := false;
    }

    /** The "Add Offer" button: opens the form as it is. */
    method OpenForm()
      modifies this
      ensures showForm && formData == old(formData) && editingOffer == old(editingOffer)
    {
      showForm := true;
    }

    /** `resetForm`: default contents, nothing being edited, form hidden. */
    method ResetForm()
      modifies this
      ensures formData == EmptyForm && editingOffer == None && !showForm
    {
      formData := EmptyForm;
      editingOffer := None;
      showForm := false;
    }

    /** `handleEdit`: loads a stored offer into the form and opens it. */
    method HandleEdit(row: OfferRow)
      modifies this
      ensures formData == FormOf(row) && editingOffer == Some(row) && showForm
      ensures formData.title == Text(row.title_en, row.title_de)
      ensures formData.validDays == row.valid_days && formData.active == row.is_active
      ensures formData.discount == row.discount_percentage
    {
      editingOffer := Some(row);
      formData := FormOf(row);
      showForm := true;
    }

    /** `handleSave`: updates the offer being edited, creates one otherwise,
        then resets the form whatever the call returned. */
    method HandleSave() returns (call: SaveCall)
      modifies this
      ensures old(editingOffer).Some? ==> call == UpdateCall(old(editingOffer).value.id, old(formData))
      ensures old(editingOffer).None? ==> call == CreateCall(old(formData))
      ensures formData == EmptyForm && editingOffer == None && !showForm
    {
      var offerData := formData;
      if editingOffer.Some? {
        call := UpdateCall(editingOffer.value.id, offerData);
      } else {
        call := CreateCall(offerData);
      }
      ResetForm();
    }

    /** `toggleDay`: flips the day's membership in the form. */
    method ToggleDay(day: int)
      modifies this
      ensures formData == old(formData).(validDays := ToggledDays(old(formData).validDays, day))
      ensures editingOffer == old(editingOffer) && showForm == old(showForm)
      ensures day in formData.validDays <==> day !in old(formData).validDays
    {
      formData := formData.(validDays := ToggledDays(formData.validDays, day));
    }

    /** The "Active" checkbox. */
    method SetActive(checked: bool)
      modifies this
      ensures formData == old(formData).(active := checked)
      ensures editingOffer == old(editingOffer) && showForm == old(showForm)
    {
      formData := formData.(active := checked);
    }
  }

  /** Editing an offer and saving it unchanged sends an update of that offer
      whose columns are the stored ones. */
  method EditThenSave(editor: OffersEditor, row: OfferRow) returns (call: SaveCall)
    modifies editor
    ensures call.UpdateCall? && call.offerId == row.id
    ensures RowOf(call.offerId, call.data) == row
  {
    editor.HandleEdit(row);
    call := editor.HandleSave();
    EditSaveRoundTrip(row, row.id, call.data);
  }
}

=== FILE: offers_section.dfy ===
/** The customer-facing offers section: it hands the active offers of the
    restaurant to the carousel, or renders nothing. */
module OffersSection {
  import opened Types
  import OffersCarousel

  /** `restaurant.offers?.filter(offer => offer.active) || []`: a missing
      list counts as empty. */
  function SectionOffers(offers: Option<seq<Offer>>): (r: seq<Offer>)
    ensures offers.None? ==> r == []
    ensures forall o :: o in r <==> offers.Some? && o in offers.value && o.active
  {
    match offers
    case None => []
    case Some(s) => OffersCarousel.ActiveOffers(s)
  }

  /** The section is rendered exactly when some offer is active. */
  function RendersSection(offers: Option<seq<Offer>>): (shown: bool)
    ensures shown <==> offers.Some? && exists k :: 0 <= k < |offers.value| && offers.value[k].active
  {
    var r := SectionOffers(offers);
    if |r| == 0 then
      assert offers.Some? ==> forall k :: 0 <= k < |offers.value| ==> offers.value[k] !in r;
      false
    else
      assert r[0] in r;
      true
  }

  /** The carousel filters the section's list again; that changes nothing,
      so it shows exactly the section's list and renders whenever the
      section does. */
  lemma CarouselShowsSectionOffers(offers: Option<seq<Offer>>)
    ensures OffersCarousel.ActiveOffers(SectionOffers(offers)) == SectionOffers(offers)
    ensures RendersSection(offers) ==> OffersCarousel.RendersCarousel(SectionOffers(offers))
  {
    if offers.Some? {
      OffersCarousel.ActiveOffersIdempotent(offers.value);
    }
    var r := SectionOffers(offers);
    if RendersSection(offers) {
      assert |r| > 0 && r[0] in r;
    }
  }
}

=== FILE: restaurant_settings.dfy ===
/** The owner's presentation settings page: the form filled from the stored
    customization with per-field defaults, the save payload, the success
    flag, and the font-style choice with its preview. */
module RestaurantSettings {
  import opened Types

  /** The settings form. */
  datatype SettingsForm = SettingsForm(
    welcomeTextEn: string,
    welcomeTextDe: string,
    primaryColor: string,
    secondaryColor: string,
    accentColor: string,
    fontStyle: string)

  const DefaultPrimary := "#f97316"
  const DefaultSecondary := "#059669"
  const DefaultAccent := "#dc2626"
  const DefaultFontStyle := "modern"

  /** The form before anything is loaded. */
  const DefaultForm := SettingsForm("", "", DefaultPrimary, DefaultSecondary, DefaultAccent, DefaultFontStyle)

  /** The three styles the page offers. */
  type FontStyle = s: string | s == "modern" || s == "classic" || s == "elegant" witness "modern"

  /** `value || fallback` on strings. */
  function OrDefault(value: string, fallback: string): (r: string)
    ensures value != "" ==> r == value
    ensures value == "" ==> r == fallback
    ensures r != "" <==> value != "" || fallback != ""
  {
    if value != "" then value else fallback
  }

  /** The form filled from stored settings: each field takes the stored
      value unless it is empty, then the field's default. */
  function FormOf(c: CustomizationRow): (f: SettingsForm)
    ensures f.welcomeTextEn == c.welcome_text_en && f.welcomeTextDe == c.welcome_text_de
    ensures f.primaryColor == OrDefault(c.primary_color, DefaultPrimary)
    ensures f.secondaryColor == OrDefault(c.secondary_color, DefaultSecondary)
    ensures f.accentColor == OrDefault(c.accent_color, DefaultAccent)
    ensures f.fontStyle == OrDefault(c.font_style, DefaultFontStyle)
    ensures f.primaryColor != "" && f.secondaryColor != "" && f.accentColor != "" && f.fontStyle != ""
  {
    SettingsForm(
      OrDefault(c.welcome_text_en, ""),
      OrDefault(c.welcome_text_de, ""),
      OrDefault(c.primary_color, DefaultPrimary),
      OrDefault(c.secondary_color, DefaultSecondary),
      OrDefault(c.accent_color, DefaultAccent),
      OrDefault(c.font_style, DefaultFontStyle))
  }

  /** The update `handleSave` sends: the six fields under their stored
      names. */
  function PayloadOf(f: SettingsForm): (c: CustomizationRow)
  {
    CustomizationRow(f.welcomeTextEn, f.welcomeTextDe, f.primaryColor, f.secondaryColor,
                     f.accentColor, f.fontStyle)
  }

  /** Loading stored settings and saving them unchanged writes back the same
      values exactly when no colour and no font style was empty. */
  lemma LoadSaveRoundTrip(c: CustomizationRow)
    ensures PayloadOf(FormOf(c)) == c <==>
      c.primary_color != "" && c.secondary_color != "" && c.accent_color != "" && c.font_style != ""
  {
  }

  /** A form whose colours and font style are set survives a save and a
      reload unchanged. */
  lemma SaveLoadRoundTrip(f: SettingsForm)
    requires f.primaryColor != "" && f.secondaryColor != "" && f.accentColor != "" && f.fontStyle != ""
    ensures FormOf(PayloadOf(f)) == f
  {
  }

  /** The preview's typeface. */
  function PreviewFontFamily(style: string): (family: string)
    ensures family == "serif" <==> style == "classic"
    ensures family == "serif" || family == "sans-serif"
  {
    if style == "classic" then "serif" else "sans-serif"
  }

  /** The preview's welcome line: the English text, or a placeholder. */
  function PreviewWelcome(f: SettingsForm): (line: string)
    ensures line != ""
    ensures f.welcomeTextEn != "" ==> line == f.welcomeTextEn
  {
    OrDefault(f.welcomeTextEn, "Your welcome text will appear here...")
  }

  /** The settings page's state. */
  class SettingsPage {
    var formData: SettingsForm
    var loading: bool
    var success: bool

    constructor ()
      ensures formData == DefaultForm && !loading && !success
    {
      formData := DefaultForm;
      loading := false;
      success := false;
    }

    /** The effect on a loaded restaurant: stored settings, when there are
        any, replace the form; otherwise it keeps its contents. */
    method Load(restaurant: Option<RestaurantRecord>)
      modifies this
      ensures restaurant.Some? && restaurant.value.restaurant_customization.Some? ==>
        formData == FormOf(restaurant.value.restaurant_customization.value)
      ensures !(restaurant.Some? && restaurant.value.restaurant_customization.Some?) ==>
        formData == old(formData)
      ensures loading == old(loading) && success == old(success)
    {
      if restaurant.Some? && restaurant.value.restaurant_customization.Some? {
        formData := FormOf(restaurant.value.restaurant_customization.value);
      }
    }

    /** A font-style button. */
    method SelectFontStyle(style: FontStyle)
      modifies this
      ensures formData == old(formData).(fontStyle := style)
      ensures loading == old(loading) && success == old(success)
    {
      formData := formData.(fontStyle := style);
    }

    /** `handleSave`: sends the form; `updated` is the backend's answer. The
        success flag ends up exactly the answer, and loading ends up off
        either way. */
    method HandleSave(updated: bool) returns (payload: CustomizationRow)
      modifies this
      ensures payload == PayloadOf(old(formData))
      ensures payload.primary_color == old(formData).primaryColor
      ensures payload.font_style == old(formData).fontStyle
      ensures success == updated && !loading
      ensures formData == old(formData)
    {
      loading := true;
      success := false;
      payload := PayloadOf(formData);
      if updated {
        success := true;
      }
      loading := false;
    }

    /** The three-second timer after a successful save. */
    method SuccessTimerFires()
      modifies this
      ensures !success && formData == old(formData) && loading == old(loading)
    {
      success := false;
    }
  }

  /** Loading stored settings whose colours and font are all set, then
      saving, sends those settings back. */
  method LoadThenSave(page: SettingsPage, r: RestaurantRecord) returns (payload: CustomizationRow)
    requires r.restaurant_customization.Some?
    requires var c := r.restaurant_customization.value;
      c.primary_color != "" && c.secondary_color != "" && c.accent_color != "" && c.font_style != ""
    modifies page
    ensures payload == r.restaurant_customization.value
  {
    page.Load(Some(r));
    payload := page.HandleSave(true);
    LoadSaveRoundTrip(r.restaurant_customization.value);
  }
}

=== FILE: types.dfy ===
/** Shared data model: the database rows the admin pages and the customer pages
    read, and the "legacy" view objects the customer components and the
    local-storage store work on. */
module Types {

  datatype Option<+T> = None | Some(value: T)

  /** The two languages the UI supports. */
  datatype Lang = En | De

  /** A per-language text `{ en, de }`. */
  datatype Text = Text(en: string, de: string)

  /** The daily validity window of an offer, two `HH:MM` strings. */
  datatype Hours = Hours(start: string, end: string)

  /** An offer in the view format the carousel and the local store use. */
  datatype Offer = Offer(
    id: string,
    title: Text,
    description: Text,
    validDays: seq<int>,
    validHours: Hours,
    active: bool,
    discount: int)

  /** A row of the `offers` table. */
  datatype OfferRow = OfferRow(
    id: string,
    title_en: string,
    title_de: string,
    description_en: string,
    description_de: string,
    valid_days: seq<int>,
    valid_hours_start: string,
    valid_hours_end: string,
    is_active: bool,
    discount_percentage: int)

  /** A row of the `menu_items` table (price as a real; no float rounding). */
  datatype MenuItemRow = MenuItemRow(
    id: string,
    name_en: string,
    name_de: string,
    description_en: string,
    description_de: string,
    price: real,
    image_url: Option<string>,
    is_vegetarian: bool,
    is_vegan: bool,
    spice_level: int,
    meat_type: Option<string>,
    is_sold_out: bool)

  /** A row of `menu_categories` with its nested `menu_items`, which a query
      may leave out. */
  datatype CategoryRow = CategoryRow(
    id: string,
    name_en: string,
    name_de: string,
    sort_order: int,
    menu_items: Option<seq<MenuItemRow>>)

  /** A row of `restaurant_customization`. */
  datatype CustomizationRow = CustomizationRow(
    welcome_text_en: string,
    welcome_text_de: string,
    primary_color: string,
    secondary_color: string,
    accent_color: string,
    font_style: string)

  /** The restaurant aggregate as the data service hands it to the pages:
      the nested collections may be missing. */
  datatype RestaurantRecord = RestaurantRecord(
    id: string,
    name: string,
    slug: string,
    description_en: string,
    description_de: string,
    logo_url: Option<string>,
    hero_image_url: Option<string>,
    menu_categories: Option<seq<CategoryRow>>,
    offers: Option<seq<OfferRow>>,
    restaurant_customization: Option<CustomizationRow>)

  /** Dietary facts of a menu item in view format. */
  datatype DietaryInfo = DietaryInfo(
    vegetarian: bool,
    vegan: bool,
    spiceLevel: int,
    meatType: Option<string>)

  /** A menu item in view format. */
  datatype MenuItem = MenuItem(
    id: string,
    name: Text,
    description: Text,
    price: real,
    image: string,
    dietaryInfo: DietaryInfo,
    soldOut: bool)

  /** The presentation settings in view format. */
  datatype Customization = Customization(
    welcomeText: Text,
    primaryColor: string,
    secondaryColor: string,
    accentColor: string,
    fontStyle: string)

  /** The text of `t` for the current language. */
  function InLang(t: Text, lang: Lang): (r: string)
    ensures lang == En ==> r == t.en
    ensures lang == De ==> r == t.de
  {
    match lang
    case En => t.en
    case De => t.de
  }

  /** `text[language] || text.en`: the current language's text unless it is
      empty, English otherwise. */
  function Localized(t: Text, lang: Lang): (r: string)
    ensures r == t.en || r == t.de
    ensures r == "" ==> t.en == ""
    ensures lang == En ==> r == t.en
    ensures lang == De && t.de != "" ==> r == t.de
    ensures lang == De && t.de == "" ==> r == t.en
  {
    if InLang(t, lang) != "" then InLang(t, lang) else t.en
  }

  predicate IsDigit(c: char)
  {
    '0' <= c <= '9'
  }

  function DigitValue(c: char): int
    requires IsDigit(c)
  {
    c as int - '0' as int
  }

  function DigitChar(d: int): (c: char)
    requires 0 <= d < 10
    ensures IsDigit(c) && DigitValue(c) == d
  {
    ('0' as int + d) as char
  }

  /** The value of a text of decimal digits. */
  function DigitsValue(s: string): int
    requires forall i :: 0 <= i < |s| ==> IsDigit(s[i])
  {
    if |s| == 0 then 0 else DigitsValue(s[..|s| - 1]) * 10 + DigitValue(s[|s| - 1])
  }

  /** A number as a template literal renders it: decimal digits without a
      leading zero. */
  function NatText(n: nat): (s: string)
    ensures |s| > 0 && forall i :: 0 <= i < |s| ==> IsDigit(s[i])
    ensures s[0] == '0' ==> n == 0
  {
    if n < 10 then [DigitChar(n)] else NatText(n / 10) + [DigitChar(n % 10)]
  }

  /** A string's `length` in JavaScript: the number of UTF-16 code units, two
      for a character above U+FFFF and one for any other. */
  function Utf16Length(s: string): (n: nat)
    ensures |s| <= n <= 2 * |s|
    ensures (forall i :: 0 <= i < |s| ==> s[i] as int < 0x1_0000) ==> n == |s|
  {
    if s == [] then 0 else (if s[0] as int >= 0x1_0000 then 2 else 1) + Utf16Length(s[1..])
  }

  /** Reading the digits back gives the number. */
  lemma {:induction false} NatTextValue(n: nat)
    ensures DigitsValue(NatText(n)) == n
  {
    if n >= 10 {
      NatTextValue(n / 10);
      var s := NatText(n);
      assert s[..|s| - 1] == NatText(n / 10);
    }
  }
}
